=== FILE: README.md ===
# Pay-per-workflow execution, modelled in Dafny

This project models the pay-then-execute path of the OpenFlow front end and its
workflow server, together with the JWK encoder of the backend's key endpoint:

- **Payment** (`web/src/lib/payments/x402-payment.ts`). This is the x402 client.
  - `createPaymentSession` mints `{maxAmount, validUntil, nonce}` from a USDC price and the clock.
  - `executePayment` submits one ERC-20 `transfer` on Base's USDC token contract through the user's wallet, waits for the receipt and returns the hash when the receipt reports success.
  - `verifyPayment` maps a receipt to a boolean.
  - The chain is an oracle. The wallet's `writeContract` returns a hash or throws.
  - The chain's ledger records the status a transaction was mined with, or nothing yet.
  - Each `waitForTransactionReceipt` call is its own oracle. It yields a success receipt, a reverted receipt or an exception. A receipt it returns matches the ledger, but it may throw (a timeout, an RPC error) whatever was mined. So the wait inside `executePayment` and a later wait inside `verifyPayment` may disagree.
- **Decimal** holds viem's `parseUnits(value, 6)` as a specification function over well-formed decimal prices. It also holds the decimal `toString` of integers that the nonce and the messages use.
- **WorkflowServer** (`mcp-servers/workflow-server/server.py`). This covers:
  - the fixed three-entry catalog
  - the lookup by id
  - the constant balance of 100 credits
  - `deduct_credits`
  - `to_dict`
  - the decision trees of `execute_workflow` and `suggest_workflows`
- **WorkflowSelector** (`web/src/app/chat/components/WorkflowSelector.tsx`). This covers `canAfford`, the execute button's `disabled` expression, and the `handleExecute` click handler over the state `(isExecuting, forcedToolIds)`.
- **WorkflowExecutor** (`web/src/components/workflow/WorkflowExecutor.tsx`). This is the `handleExecute` click handler over `(executing, error, txHash)`. It runs session creation, then the payment, then `onExecute(workflowId, hash)`.
- **Octets**, **Base64Url** and **Jwks** (`backend/onyx/auth/jwks.py`). `public_key_to_jwk` writes the RSA modulus and exponent as Base64urlUInt values, as section 6.3.1 of RFC 7518 requires:
  - Each integer becomes its minimal big-endian octets, using Python's `to_bytes` with `(bit_length() + 7) // 8` octets. For a positive integer this is the form section 2 of RFC 7518 prescribes; zero is the exception noted under "## Left out".
  - The octets are encoded in the URL-safe alphabet of section 5 of RFC 4648.
  - The `=` padding is stripped.
  - The members `kty`, `use`, `kid` and `alg` are fixed.

An async click handler is modelled as a pure function. It returns the handler's
trace and the component's final state:

- Each trace entry pairs an event with the component state right after it (module `Trace`, shared by both components). The events are a state setter, a session, a payment, or a call into `onSubmit`/`onExecute`.
- Awaited calls are oracle parameters:
  - the wallet
  - each receipt wait
  - `onSubmit`
  - `onExecute`
- The two readings of `Date.now()` in `createPaymentSession` become two clock parameters.
- `WorkflowExecutor.tsx` reads `wallet` and `isInitialized` but never declares them. The model takes them as inputs of the handler (see "## Left out" for what the shipped code binds them to).

The code does not do several things a payment step would be expected to do:

- It does not check the session's expiry right before submission.
- It does not require the cap to be positive.
- It does not transfer exactly the session's cap.
- It does not distinguish a failed submission, a revert and a timeout.

The model keeps these behaviours as written and proves them:

- `executePayment` never reads its `session`: there is no expiry check and no cap check (`Payment.ExecuteIgnoresSession`, `Payment.ExpiredOverCapSessionStillPays`).
- It transfers `parseUnits(actualAmount)`, not `session.maxAmount`. Through the executor both come from the same price string, so they agree there (`WorkflowExecutor.TransferMatchesSession`).
- Every failure is reported as the single message "Payment execution failed". This covers a rejected submission, a thrown wait and a reverted transfer.
- A transfer mined after its wait threw is charged but reported as failed. `onExecute` is then never called, while a later `verifyPayment` of the same hash can say true (`Payment.ChargedWithoutHash`, `WorkflowExecutor.ChargedButNotExecuted`).
- A price of `"0"` gives a session with `maxAmount == 0`: nothing requires the cap to be positive (`Payment.ZeroPriceZeroCap`).
- The "Failed to deduct credits" branch of `execute_workflow` is dead code (`WorkflowServer.DeductFailureUnreachable`).

## Model

| member | source | states |
|---|---|---|
| Decimal.ParseUnits | web/src/lib/payments/x402-payment.ts:22 | `parseUnits(price, 6)` is the price in base units: its quotient by 10^6 is the integer part and its remainder is the fraction zero-padded to six places |
| Decimal.ParseUnitsInjective | web/src/lib/payments/x402-payment.ts:22 | two well-formed prices give the same amount exactly when their integer parts agree and their fractions, read to six places, agree |
| Decimal.OneDollarIsOneMillionUnits | web/src/lib/payments/x402-payment.ts:20-22 | the documented example: "1.00" USDC is 1_000_000 base units |
| Decimal.NatToString | web/src/lib/payments/x402-payment.ts:24 | `toString` of a non-negative integer is a non-empty digit string with no leading zero that reads back as the integer |
| Decimal.IntToString | mcp-servers/workflow-server/server.py:153 | an integer interpolated into a message: a `-` exactly for negatives, followed by the decimal form of the magnitude |
| Payment.CreatePaymentSession | web/src/lib/payments/x402-payment.ts:18-33 | the cap is the parsed price; the current second lies exactly one hour before `validUntil`, so the session is valid at creation; the nonce is the clock reading in canonical decimal (no leading zero), as `Date.now().toString()` |
| Payment.ZeroPriceZeroCap | web/src/lib/payments/x402-payment.ts:22-32 | a price of "0" is accepted and yields a session whose cap is 0 units |
| Payment.SessionIgnoresWallet | web/src/lib/payments/x402-payment.ts:18-33 | the wallet argument has no influence: the session depends only on the price and the clock |
| Payment.ExecutePayment | web/src/lib/payments/x402-payment.ts:39-95 | exactly one call, `transfer` on the Base USDC token address, of `parseUnits(actualAmount, 6)` to the platform wallet; a receipt is awaited exactly when a hash came back; the hash is returned if and only if that wait returns a success receipt; every failure is "Payment execution failed" |
| Payment.ExecuteIgnoresSession | web/src/lib/payments/x402-payment.ts:39-95 | two payments that differ only in their session behave identically |
| Payment.ExpiredOverCapSessionStillPays | web/src/lib/payments/x402-payment.ts:39-95 | an expired session whose cap is below the amount still leads to a transfer above the cap and a returned hash |
| Payment.VerifyPayment | web/src/lib/payments/x402-payment.ts:101-117 | `verifyPayment` never fails: it is true exactly when its wait returns a success receipt, and false for a reverted receipt or a wait that throws |
| Payment.VerifyDependsOnlyOnReceipt | web/src/lib/payments/x402-payment.ts:101-117 | two waits that return the same outcome for the hash give the same verdict |
| Payment.VerifySoundNotComplete | web/src/lib/payments/x402-payment.ts:107-116 | with a wait truthful to the ledger, true means the transaction was mined with success; a wait that throws gives false whatever was mined |
| Payment.ExecutedHashIsMined | web/src/lib/payments/x402-payment.ts:82-90 | with a wait truthful to the ledger, a hash `executePayment` returns belongs to a transfer mined with success |
| Payment.ChargedWithoutHash | web/src/lib/payments/x402-payment.ts:82-93 | when the transfer is mined with success but `executePayment`'s wait throws, it fails with "Payment execution failed", and a later `verifyPayment` whose wait sees the receipt says true |
| Payment.ExecuteAgreesWithVerify | web/src/lib/payments/x402-payment.ts:82-116 | when both waits see the same outcome for the submitted hash, `executePayment` returns a hash exactly when the transfer was submitted and `verifyPayment` of that hash says true |
| WorkflowServer.ToDict | mcp-servers/workflow-server/server.py:39-46 | `to_dict` has exactly the five keys and the workflow can be read back from it unchanged |
| WorkflowServer.CatalogInvariants | mcp-servers/workflow-server/server.py:55-77 | the catalog has three entries with distinct ids, all carrying the server's tool id, with costs between 1 and the default balance |
| WorkflowServer.FindWorkflow | mcp-servers/workflow-server/server.py:83-88 | the lookup returns `None` exactly when no entry has the id, and otherwise an entry with the id preceded by none |
| WorkflowServer.FindWorkflowIsFirst | mcp-servers/workflow-server/server.py:83-88 | the entry returned is the first one with the id |
| WorkflowServer.DeductCreditsSpec | mcp-servers/workflow-server/server.py:90-102 | every user has balance 100; a deduction succeeds exactly when the amount is at most 100, the same for every user, and leaves the balance as it was |
| WorkflowServer.ExecuteWorkflow | mcp-servers/workflow-server/server.py:138-183 | not found exactly for an unknown id; insufficient balance exactly when the found cost exceeds the balance, reporting the cost as need and the balance as have, with the error text "Insufficient balance. Need <cost> credits, have 100"; an unknown id's text is "Workflow '<id>' not found"; on success `credits_used` is the cost and `remaining_balance` is the balance minus the cost, never negative (nothing is actually charged: the balance stays 100) |
| WorkflowServer.ErrorText | mcp-servers/workflow-server/server.py:143-161 | the first character of the `error` text tells not-found, insufficient balance and failed deduction apart, and a not-found text quotes the requested id back |
| WorkflowServer.ErrorTextIdentifiesReason | mcp-servers/workflow-server/server.py:143-161 | equal error texts mean the same kind of failure, and equal not-found texts name the same id |
| WorkflowServer.DeductFailureUnreachable | mcp-servers/workflow-server/server.py:149-161 | `execute_workflow` never answers "Failed to deduct credits" |
| WorkflowServer.CatalogWorkflowsSucceed | mcp-servers/workflow-server/server.py:52-77 | every workflow of a freshly built manager executes successfully |
| WorkflowServer.SuggestWorkflows | mcp-servers/workflow-server/server.py:117-129 | a `workflow_list` with every catalog entry, in order, as a dictionary that reads back as that entry, and the balance 100 |
| WorkflowSelector.CanAfford | web/src/app/chat/components/WorkflowSelector.tsx:78 | `canAfford` is exactly the negation of the handler's refusal test `cost > userBalance` at line 39 |
| WorkflowSelector.ButtonEnabled | web/src/app/chat/components/WorkflowSelector.tsx:101-103 | the button is clickable exactly for an affordable workflow, with nothing executing and `onSubmit` present |
| WorkflowSelector.HandleExecute | web/src/app/chat/components/WorkflowSelector.tsx:33-65 | without `onSubmit` nothing happens; an unaffordable workflow only raises the alert and leaves the state alone; an affordable one gives five steps, the third being the `onSubmit` call; `onSubmit` is called once, as the third step, exactly for an affordable workflow, with "Execute workflow: id" while the workflow's tool is the only forced tool and execution is flagged; afterwards, resolved or rejected, the forced tools are empty and the flag is off |
| WorkflowSelector.StatesFollowEvents | web/src/app/chat/components/WorkflowSelector.tsx:33-65 | every state recorded in the handler's trace is the previous state with that entry's setter applied |
| WorkflowSelector.ButtonGuardsHandler | web/src/app/chat/components/WorkflowSelector.tsx:101-103 | the button is enabled exactly when nothing is executing and a click would reach `onSubmit` |
| WorkflowSelector.AdmissionAgreesWithServer | web/src/app/chat/components/WorkflowSelector.tsx:78 | with the balance the server reports, `canAfford` holds for a catalog workflow exactly when the server would execute it |
| WorkflowExecutor.HandleExecute | web/src/components/workflow/WorkflowExecutor.tsx:26-56 | an unusable wallet sets the "Wallet not initialized" error and reaches nothing outside the component; a usable one first sets `executing`, clears `error`, clears `txHash`, and always ends with `executing` cleared |
| WorkflowExecutor.StatesFollowEvents | web/src/components/workflow/WorkflowExecutor.tsx:26-56 | every state recorded in the handler's trace is the previous state with that entry's setter applied |
| WorkflowExecutor.SessionPaymentExecuteOrder | web/src/components/workflow/WorkflowExecutor.tsx:40-47 | a payment comes right after its own session, for the workflow's price and for the session's cap; `onExecute` comes right after `txHash` was set to the hash that payment returned, with the workflow's id |
| WorkflowExecutor.OnePaymentPerClick | web/src/components/workflow/WorkflowExecutor.tsx:36-47 | with a usable wallet: one session, one payment, and a call of `onExecute` exactly when the transfer was submitted and the payment's wait returned a success receipt |
| WorkflowExecutor.ExecutesOnlyMinedPayments | web/src/components/workflow/WorkflowExecutor.tsx:40-47 | with a wait truthful to the ledger, `onExecute` only ever receives the hash of a transfer mined with success |
| WorkflowExecutor.ChargedButNotExecuted | web/src/components/workflow/WorkflowExecutor.tsx:40-54 | when the payment's wait throws but the transfer is mined with success, the transfer to the platform wallet is recorded, `onExecute` is never called, and the panel ends with "Payment execution failed" and no hash |
| WorkflowExecutor.FinalState | web/src/components/workflow/WorkflowExecutor.tsx:43-55 | a failed payment leaves "Payment execution failed" and no hash; one whose wait reported success leaves as `txHash` exactly the hash the wallet returned for the transfer, no error when `onExecute` completed, and the thrown message (or "Unknown error") when it threw |
| WorkflowExecutor.ButtonsDisabledInFlight | web/src/components/workflow/WorkflowExecutor.tsx:109-111 | after every step but the last, `executing` is the workflow's id, so every button is disabled; the last step enables them again |
| WorkflowExecutor.TransferMatchesSession | web/src/components/workflow/WorkflowExecutor.tsx:40-43 | the amount transferred equals the cap of the session just created |
| Octets.ToBytes | backend/onyx/auth/jwks.py:40-47 | `to_bytes(length, 'big')` of a value that fits gives `length` octets that read back as the value |
| Octets.ByteLengthFits | backend/onyx/auth/jwks.py:41 | `(bit_length + 7) // 8` octets hold the value, and for a positive value one octet fewer does not |
| Octets.MinimalBytes | backend/onyx/auth/jwks.py:40-47 | the octets have length `(bit_length + 7) // 8` and read back as the integer |
| Octets.MinimalBytesHasNoLeadingZero | backend/onyx/auth/jwks.py:40-47 | zero gives no octets; a positive integer gives a non-empty string whose first octet is not zero |
| Base64Url.CharRoundTrip | backend/onyx/auth/jwks.py:54-55 | each 6-bit value maps to a URL-safe character that decodes back to it |
| Base64Url.Encode | backend/onyx/auth/jwks.py:54 | `urlsafe_b64encode` gives whole groups of four characters: the unpadded length plus the padding count |
| Base64Url.EncodeIsUnpaddedPlusPadding | backend/onyx/auth/jwks.py:54-55 | `urlsafe_b64encode` is the unpadded text followed by zero, two or one `=` for lengths 0, 1, 2 modulo 3 |
| Base64Url.LengthFormulas | backend/onyx/auth/jwks.py:54-55 | for L octets the unpadded text has `4*(L/3)` characters plus 0, 2 or 3 for `L % 3` = 0, 1, 2, and the padding has 0, 2 or 1 `=` |
| Base64Url.UnpaddedShape | backend/onyx/auth/jwks.py:54-55 | the unpadded text of L octets has four characters per group of three octets, two more for a final octet, three more for a final pair, and only URL-safe characters |
| Base64Url.RStripPad | backend/onyx/auth/jwks.py:54-55 | `rstrip('=')` keeps a prefix, removes only `=`, and leaves no `=` at the end |
| Base64Url.EncodeThenStrip | backend/onyx/auth/jwks.py:54-55 | stripping the padding of the encoding gives exactly the unpadded text |
| Base64Url.DecodeUnpadded | backend/onyx/auth/jwks.py:54-55 | decoding the unpadded text gives back the octets |
| Base64Url.RepadRestoresEncode | backend/onyx/auth/jwks.py:54-55 | re-padding the stripped text to a multiple of four gives back the padded encoding |
| Base64Url.RepadCount | backend/onyx/auth/jwks.py:54-55 | the `=` needed to bring the unpadded text to a multiple of four are exactly the `=` the encoder wrote |
| Base64Url.PaddedLength | backend/onyx/auth/jwks.py:54-55 | the padded encoding is a whole number of four-character groups and ends in at most two `=` |
| Base64Url.DecodeEncode | backend/onyx/auth/jwks.py:54-55 | decoding the padded encoding gives back the octets |
| Base64Url.StripRepadDecode | backend/onyx/auth/jwks.py:54-55 | strip, re-pad, decode: the original octets come back |
| Jwks.Base64UrlUInt | backend/onyx/auth/jwks.py:40-55 | a member value has only URL-safe characters, has the unpadded length of the minimal octets, and reads back as the integer |
| Jwks.ZeroEncodesEmpty | backend/onyx/auth/jwks.py:53-54 | zero becomes the empty text, while the single zero octet that section 2 of RFC 7518 uses for zero would encode as "AA" |
| Jwks.PublicKeyToJwk | backend/onyx/auth/jwks.py:35-56 | `kty` "RSA", `use` "sig", `alg` "RS256", `kid` "openflow-key-1", the same literal `create_cdp_jwt` puts in its header at backend/onyx/auth/cdp_jwt.py:53; `n` and `e` read back as the key's modulus and exponent |
| Jwks.PublicKeyToJwkInjective | backend/onyx/auth/jwks.py:35-56 | distinct public keys give distinct JWKs |
| Jwks.GetJwks | backend/onyx/auth/jwks.py:59-76 | a loaded key gives a key set of exactly that one JWK; a load failure gives status 500 |
| Octets.BitLengthBetween | backend/onyx/auth/jwks.py:41 | `bit_length` of x is k exactly when 2^(k-1) <= x < 2^k |
| Jwks.GeneratedExponentLength | backend/onyx/auth/jwks.py:88-92 | the generated exponent 65537 takes three octets |
| Jwks.GeneratedExponentOctets | backend/onyx/auth/jwks.py:44-47 | the minimal big-endian octets of the generated exponent 65537 are 01 00 01 |
| Jwks.OctetsOneZeroOneAreAQAB | backend/onyx/auth/jwks.py:54-55 | an integer whose minimal octets are 01 00 01 is published as "AQAB" |
| Jwks.GeneratedExponentIsAQAB | backend/onyx/auth/jwks.py:44-55 | the `e` member for the generated exponent 65537 is "AQAB" |

## Left out

- Chain access: the viem wallet and public clients, RPC transport, and the timeout and retry behaviour of `waitForTransactionReceipt` become the `writeContract` oracle, one wait oracle per wait, and the ledger. A wait that returns a receipt is assumed truthful to the ledger (`Payment.WaitAgreesWith`). This excludes a replaced or cancelled transaction: viem's wait then resolves with the replacement's receipt, which belongs to a different transaction, and `WaitAgreesWith` does not allow that.
- Payment.ExecuteAgreesWithVerify: holds only when both waits see the same outcome for the hash. When `executePayment`'s wait throws and the transfer is then mined with success, the two disagree, as `Payment.ChargedWithoutHash` shows.
- WorkflowExecutor.OnePaymentPerClick: `onExecute` follows what the payment's wait reported, not what the chain mined. A transfer mined after its wait threw is charged with no `onExecute`, as `WorkflowExecutor.ChargedButNotExecuted` shows.
- WorkflowSelector.HandleExecute: `cost` and `userBalance` are JavaScript numbers, modelled as integers. With `NaN`, both `cost > userBalance` and `cost <= userBalance` are false: the button would be disabled, yet the handler would call `onSubmit`. The server sends integers (`cost: int` and `DEFAULT_USER_BALANCE = 100` in server.py), so this case is not modelled.
- `PLATFORM_WALLET` comes from the environment. It is a parameter.
- Wallet binding: `WorkflowExecutor.tsx` imports only `useEvmAddress` and `useIsSignedIn` (line 4) and never calls `useCDP`, so `wallet` and `isInitialized` (lines 27, 40, 43, 58) are unbound in the file. Even read through `useCDP`, web/src/lib/cdp/CDPProvider.tsx:26 starts `wallet` as `null` and never sets it, so with the shipped provider only the "Wallet not initialized" branch can run. The model takes both as arbitrary inputs so that the payment path can be stated at all.
- Chain of the user's wallet: nothing fixes which chain the user's wallet submits on. Only the token address is Base's USDC. The Base wallet client built at web/src/lib/payments/x402-payment.ts:44-47 is never used.
- Logging (`console.log`, `console.error`, `logger.info`) has no effect on any state modelled here and is omitted.
- Decimal.ParseUnits: defined only for well-formed prices. These are digits, optionally followed by one `.` and at most six more digits. viem's rounding of longer fractions, its handling of signs, exponents and malformed text, and the `trim` of trailing zeros are library internals that are not shown. The trim does not change the value.
- Payment.CreatePaymentSession: requires a well-formed price for the same reason. The `toISOString` in its log line is not modelled.
- Payment.ExecutePayment: requires a well-formed `actualAmount`. A malformed amount would make `parseUnits` throw before the `try`, and that path is not modelled.
- WorkflowExecutor.HandleExecute: requires a well-formed `workflow.price`. A `parseUnits` exception inside the `try` would set `error` to its message, and that path is not modelled.
- Nonce uniqueness: two sessions minted in the same millisecond share a nonce. Nothing in the source prevents it, so nothing is claimed.
- The JavaScript `number` of `validUntil` and the JavaScript `bigint` of `maxAmount` are modelled as unbounded integers. No realistic clock or price comes near the 2^53 limit.
- React concurrency: state updates are applied in order as they are issued. Batching, re-renders between awaits, and a second click that lands before the first re-render are not modelled. `ButtonsDisabledInFlight` states what the rendered buttons guarantee.
- Rendering: the JSX of both workflow components, the "Initializing wallet..." placeholder, and the BaseScan link.
- Jwks.Base64UrlUInt: 0 encodes as the empty string, because `(0).to_bytes(0, 'big')` is empty, whereas section 2 of RFC 7518 represents zero as one zero octet, "AA" (`Jwks.ZeroEncodesEmpty`). The model follows the code. `RsaPublicNumbers` admits 0, but an RSA modulus and public exponent are positive, so a real key never reaches this case.
- Jwks.GetJwks: the failure is modelled as status 500 without the `detail` text. That text embeds `str()` of a framework exception.
- Key handling: RSA key generation, PEM loading and saving, and the file-not-found path of `load_public_key` are file and crypto-library I/O. The only trace of them in the model is the `Option` that `GetJwks` receives and the exponent constant 65537.
- `backend/onyx/auth/cdp_jwt.py` (JWT signing) is not part of this model. Its header `kid` literal (line 53) is recorded as `Jwks.SigningHeaderKeyId`. The equality with the published `kid` that `Jwks.PublicKeyToJwk` states holds between two literals copied from the two files; no signing path is checked.
- MCP server bootstrapping (`build_mcp_server` registration, `argparse`, `main`) and the login plumbing (`coinbase_auth.py`, `coinbase-sync/route.ts`, `cdp_routes.py`, the CDP provider and the wallet panel) are transport and UI code.
- `suggest_workflows` nests the list and the balance under `"data"`. The model flattens that object into one `WorkflowList` value.

=== FILE: base64url.dfy ===
/** The URL- and filename-safe base64 alphabet of section 5 of RFC 4648, as
    Python's `base64.urlsafe_b64encode` uses it (with `=` padding), the same
    text with the padding stripped by `rstrip('=')`, and a decoder for the
    unpadded form that inverts it. */
module Base64Url {
  import opened Wrappers
  import Octets

  type byte = Octets.byte

  /** The padding character. */
  const Pad: char := '='

  /** The character for a 6-bit value: `A`-`Z`, `a`-`z`, `0`-`9`, `-`, `_`. */
  function EncodeChar(i: nat): (c: char)
    requires i < 64
  {
    if i < 26 then ('A' as int + i) as char
    else if i < 52 then ('a' as int + (i - 26)) as char
    else if i < 62 then ('0' as int + (i - 52)) as char
    else if i == 62 then '-'
    else '_'
  }

  predicate IsUrlSafeChar(c: char) {
    ('A' <= c <= 'Z') || ('a' <= c <= 'z') || ('0' <= c <= '9') || c == '-' || c == '_'
  }

  /** The 6-bit value of an alphabet character. */
  function DecodeChar(c: char): (i: nat)
    requires IsUrlSafeChar(c)
    ensures i < 64
  {
    if 'A' <= c <= 'Z' then c as int - 'A' as int
    else if 'a' <= c <= 'z' then c as int - 'a' as int + 26
    else if '0' <= c <= '9' then c as int - '0' as int + 52
    else if c == '-' then 62
    else 63
  }

  /** Each 6-bit value has its own character, and reading it back gives the value. */
  lemma CharRoundTrip(i: nat)
    requires i < 64
    ensures IsUrlSafeChar(EncodeChar(i)) && DecodeChar(EncodeChar(i)) == i
  {
  }

  /** Three octets, 24 bits, as four characters of six bits each. */
  function EncodeBlock(a: byte, b: byte, c: byte): string {
    [EncodeChar(a / 4), EncodeChar((a % 4) * 16 + b / 16), EncodeChar((b % 16) * 4 + c / 64), EncodeChar(c % 64)]
  }

  /** A final single octet: its 8 bits in two characters, the last one padded with zero bits. */
  function EncodeTail1(a: byte): string {
    [EncodeChar(a / 4), EncodeChar((a % 4) * 16)]
  }

  /** A final pair of octets: 16 bits in three characters. */
  function EncodeTail2(a: byte, b: byte): string {
    [EncodeChar(a / 4), EncodeChar((a % 4) * 16 + b / 16), EncodeChar((b % 16) * 4)]
  }

  /** `n` padding characters. */
  function Padding(n: nat): (s: string)
    ensures |s| == n && forall i :: 0 <= i < n ==> s[i] == Pad
  {
    if n == 0 then [] else Padding(n - 1) + [Pad]
  }

  /** `base64.urlsafe_b64encode(bs).decode()`: each group of three octets as four
      characters, and a short final group padded with `=` to four. */
  function Encode(bs: seq<byte>): (s: string)
    // whole groups of four characters: four per three octets, a short final group padded out
    ensures |s| == UnpaddedLength(|bs|) + PadCount(|bs|)
    ensures |s| % 4 == 0
  {
    if |bs| == 0 then []
    else if |bs| == 1 then EncodeTail1(bs[0]) + Padding(2)
    else if |bs| == 2 then EncodeTail2(bs[0], bs[1]) + Padding(1)
    else EncodeBlock(bs[0], bs[1], bs[2]) + Encode(bs[3..])
  }

  /** The same characters without the trailing padding. */
  function Unpadded(bs: seq<byte>): string {
    if |bs| == 0 then []
    else if |bs| == 1 then EncodeTail1(bs[0])
    else if |bs| == 2 then EncodeTail2(bs[0], bs[1])
    else EncodeBlock(bs[0], bs[1], bs[2]) + Unpadded(bs[3..])
  }

  /** How many `=` the padded encoding of `length` octets ends with: one group
      of three octets at a time, then two for a final octet and one for a final pair. */
  function PadCount(length: nat): nat {
    if length == 0 then 0
    else if length == 1 then 2
    else if length == 2 then 1
    else PadCount(length - 3)
  }

  /** How long the unpadded encoding of `length` octets is: four characters per
      group of three octets, then two for a final octet and three for a final pair. */
  function UnpaddedLength(length: nat): nat {
    if length == 0 then 0
    else if length == 1 then 2
    else if length == 2 then 3
    else 4 + UnpaddedLength(length - 3)
  }

  /** The lengths in closed form: `ceil(4 * length / 3)` characters before the
      padding, and padding up to the next multiple of four. */
  lemma {:induction false} LengthFormulas(length: nat)
    ensures UnpaddedLength(length) == 4 * (length / 3) + (if length % 3 == 0 then 0 else length % 3 + 1)
    ensures PadCount(length) == if length % 3 == 0 then 0 else 3 - length % 3
  {
    if length >= 3 {
      LengthFormulas(length - 3);
    }
  }

  /** The padded encoding is the unpadded one followed by `PadCount` `=`. */
  lemma {:induction false} EncodeIsUnpaddedPlusPadding(bs: seq<byte>)
    ensures Encode(bs) == Unpadded(bs) + Padding(PadCount(|bs|))
    decreases |bs|
  {
    if |bs| >= 3 {
      EncodeIsUnpaddedPlusPadding(bs[3..]);
      EncodeStep(bs);
    } else if |bs| == 0 {
      assert PadCount(0) == 0;
    } else if |bs| == 1 {
      assert PadCount(1) == 2;
    } else {
      assert PadCount(2) == 1;
    }
  }

  /** One group of three octets in front leaves the padding unchanged. */
  lemma EncodeStep(bs: seq<byte>)
    requires |bs| >= 3
    requires Encode(bs[3..]) == Unpadded(bs[3..]) + Padding(PadCount(|bs[3..]|))
    ensures Encode(bs) == Unpadded(bs) + Padding(PadCount(|bs|))
  {
    var block, rest := EncodeBlock(bs[0], bs[1], bs[2]), bs[3..];
    var pad := Padding(PadCount(|bs|));
    assert Encode(bs) == block + (Unpadded(rest) + pad);
    assert block + (Unpadded(rest) + pad) == (block + Unpadded(rest)) + pad;
  }

  /** Every character of s is in the alphabet, so in particular none is `=`. */
  predicate AllUrlSafe(s: string) {
    forall i :: 0 <= i < |s| ==> IsUrlSafeChar(s[i])
  }

  lemma UrlSafeConcat(x: string, y: string)
    requires AllUrlSafe(x) && AllUrlSafe(y)
    ensures AllUrlSafe(x + y)
  {
    forall i | 0 <= i < |x + y|
      ensures IsUrlSafeChar((x + y)[i])
    {
      if i >= |x| {
        assert (x + y)[i] == y[i - |x|];
      }
    }
  }

  lemma BlockUrlSafe(a: byte, b: byte, c: byte)
    ensures AllUrlSafe(EncodeBlock(a, b, c))
  {
    CharRoundTrip(a / 4);
    CharRoundTrip((a % 4) * 16 + b / 16);
    CharRoundTrip((b % 16) * 4 + c / 64);
    CharRoundTrip(c % 64);
  }

  lemma TailsUrlSafe(a: byte, b: byte)
    ensures AllUrlSafe(EncodeTail1(a)) && AllUrlSafe(EncodeTail2(a, b))
  {
    CharRoundTrip(a / 4);
    CharRoundTrip((a % 4) * 16);
    CharRoundTrip((a % 4) * 16 + b / 16);
    CharRoundTrip((b % 16) * 4);
  }

  /** The unpadded encoding has the length `UnpaddedLength` gives and uses the
      alphabet only. */
  lemma {:induction false} UnpaddedShape(bs: seq<byte>)
    ensures |Unpadded(bs)| == UnpaddedLength(|bs|)
    ensures AllUrlSafe(Unpadded(bs))
    decreases |bs|
  {
    if |bs| >= 3 {
      UnpaddedShape(bs[3..]);
      BlockUrlSafe(bs[0], bs[1], bs[2]);
      UrlSafeConcat(EncodeBlock(bs[0], bs[1], bs[2]), Unpadded(bs[3..]));
    } else if |bs| == 2 {
      assert UnpaddedLength(2) == 3;
      TailsUrlSafe(bs[0], bs[1]);
    } else if |bs| == 1 {
      assert UnpaddedLength(1) == 2;
      TailsUrlSafe(bs[0], bs[0]);
    } else {
      assert UnpaddedLength(0) == 0;
    }
  }

  /** `str.rstrip('=')`: drops every trailing `=`. */
  function RStripPad(s: string): (r: string)
    ensures |r| <= |s| && r == s[..|r|]
    ensures |r| > 0 ==> r[|r| - 1] != Pad
    ensures forall i :: |r| <= i < |s| ==> s[i] == Pad
  {
    if |s| > 0 && s[|s| - 1] == Pad then RStripPad(s[..|s| - 1]) else s
  }

  /** Stripping a run of padding from a text that does not end in `=` gives the text back. */
  lemma {:induction false} RStripPadding(s: string, n: nat)
    requires |s| > 0 ==> s[|s| - 1] != Pad
    ensures RStripPad(s + Padding(n)) == s
  {
    if n > 0 {
      assert s + Padding(n) == (s + Padding(n - 1)) + [Pad];
      assert (s + Padding(n))[..|s + Padding(n)| - 1] == s + Padding(n - 1);
      RStripPadding(s, n - 1);
    } else {
      assert s + Padding(0) == s;
    }
  }

  /** `urlsafe_b64encode(bs).decode().rstrip('=')` is exactly the unpadded encoding. */
  lemma EncodeThenStrip(bs: seq<byte>)
    ensures RStripPad(Encode(bs)) == Unpadded(bs)
  {
    EncodeIsUnpaddedPlusPadding(bs);
    UnpaddedShape(bs);
    RStripPadding(Unpadded(bs), PadCount(|bs|));
  }

  /** The first four characters (or all of a shorter text) are in the alphabet. */
  predicate HeadUrlSafe(s: string) {
    && (|s| > 0 ==> IsUrlSafeChar(s[0]))
    && (|s| > 1 ==> IsUrlSafeChar(s[1]))
    && (|s| > 2 ==> IsUrlSafeChar(s[2]))
    && (|s| > 3 ==> IsUrlSafeChar(s[3]))
  }

  /** Four characters back to three octets. */
  function DecodeBlock(s: string): (bs: seq<byte>)
    requires |s| == 4 && HeadUrlSafe(s)
    ensures |bs| == 3
  {
    var d0, d1, d2, d3 := DecodeChar(s[0]), DecodeChar(s[1]), DecodeChar(s[2]), DecodeChar(s[3]);
    [d0 * 4 + d1 / 16, (d1 % 16) * 16 + d2 / 4, (d2 % 4) * 64 + d3]
  }

  /** The unpadded text back to its octets; `None` for a character outside the
      alphabet or a length that leaves a single character over. */
  function Decode(s: string): (r: Option<seq<byte>>)
    decreases |s|
  {
    if |s| == 0 then Some([])
    else if !HeadUrlSafe(s) then None
    else if |s| == 1 then None
    else if |s| == 2 then
      Some([DecodeChar(s[0]) * 4 + DecodeChar(s[1]) / 16])
    else if |s| == 3 then
      Some([DecodeChar(s[0]) * 4 + DecodeChar(s[1]) / 16, (DecodeChar(s[1]) % 16) * 16 + DecodeChar(s[2]) / 4])
    else
      match Decode(s[4..])
      case None => None
      case Some(rest) => Some(DecodeBlock(s[..4]) + rest)
  }

  /** Splitting into sextets and joining them again restores each octet:
      the first octet from the first sextet and the top of the second. */
  lemma FirstOctet(a: byte, b: byte)
    ensures (a / 4) * 4 + ((a % 4) * 16 + b / 16) / 16 == a
  {
    var d1 := (a % 4) * 16 + b / 16;
    assert d1 / 16 == a % 4;
  }

  /** The second octet from the bottom of the second sextet and the top of the third. */
  lemma SecondOctet(b: byte, c: byte)
    ensures (((b % 16) * 4 + c / 64) / 4) == b % 16
    ensures ((b / 16) % 16) * 16 + b % 16 == b
  {
  }

  /** The third octet from the bottom of the third sextet and the fourth. */
  lemma ThirdOctet(b: byte, c: byte)
    ensures (((b % 16) * 4 + c / 64) % 4) * 64 + c % 64 == c
  {
    var d2 := (b % 16) * 4 + c / 64;
    assert d2 % 4 == c / 64;
  }

  lemma BlockRoundTrip(a: byte, b: byte, c: byte)
    ensures HeadUrlSafe(EncodeBlock(a, b, c))
    ensures DecodeBlock(EncodeBlock(a, b, c)) == [a, b, c]
  {
    var d0, d1, d2, d3 := a / 4, (a % 4) * 16 + b / 16, (b % 16) * 4 + c / 64, c % 64;
    var block := EncodeBlock(a, b, c);
    assert block == [EncodeChar(d0), EncodeChar(d1), EncodeChar(d2), EncodeChar(d3)];
    CharRoundTrip(d0);
    CharRoundTrip(d1);
    CharRoundTrip(d2);
    CharRoundTrip(d3);
    FirstOctet(a, b);
    SecondOctet(b, c);
    ThirdOctet(b, c);
    assert d1 % 16 == b / 16;
    assert DecodeBlock(block) == [d0 * 4 + d1 / 16, (d1 % 16) * 16 + d2 / 4, (d2 % 4) * 64 + d3];
  }

  /** Decoding inverts the unpadded encoding. */
  lemma {:induction false} DecodeUnpadded(bs: seq<byte>)
    ensures Decode(Unpadded(bs)) == Some(bs)
    decreases |bs|
  {
    if |bs| >= 3 {
      DecodeUnpadded(bs[3..]);
      DecodeUnpaddedStep(bs);
    } else if |bs| == 2 {
      Tail2RoundTrip(bs[0], bs[1]);
      assert bs == [bs[0], bs[1]];
    } else if |bs| == 1 {
      Tail1RoundTrip(bs[0]);
      assert bs == [bs[0]];
    }
  }

  lemma DecodeUnpaddedStep(bs: seq<byte>)
    requires |bs| >= 3
    requires Decode(Unpadded(bs[3..])) == Some(bs[3..])
    ensures Decode(Unpadded(bs)) == Some(bs)
  {
    assert Unpadded(bs) == EncodeBlock(bs[0], bs[1], bs[2]) + Unpadded(bs[3..]);
    SplitBlock(bs);
    DecodeAfterBlock(bs[0], bs[1], bs[2], Unpadded(bs[3..]), bs[3..]);
  }

  lemma SplitBlock(bs: seq<byte>)
    requires |bs| >= 3
    ensures bs == [bs[0], bs[1], bs[2]] + bs[3..]
  {
  }

  /** A block in front of a decodable text decodes to its three octets in front. */
  lemma DecodeAfterBlock(a: byte, b: byte, c: byte, rest: string, tail: seq<byte>)
    requires Decode(rest) == Some(tail)
    ensures Decode(EncodeBlock(a, b, c) + rest) == Some([a, b, c] + tail)
  {
    var block := EncodeBlock(a, b, c);
    var s := block + rest;
    BlockRoundTrip(a, b, c);
    assert s[..4] == block;
    assert s[4..] == rest;
    assert s[0] == block[0] && s[1] == block[1] && s[2] == block[2] && s[3] == block[3];
  }

  lemma Tail1RoundTrip(a: byte)
    ensures Decode(EncodeTail1(a)) == Some([a])
  {
    CharRoundTrip(a / 4);
    CharRoundTrip((a % 4) * 16);
    assert (a / 4) * 4 + ((a % 4) * 16) / 16 == a;
    var s := EncodeTail1(a);
    assert HeadUrlSafe(s);
  }

  lemma Tail2RoundTrip(a: byte, b: byte)
    ensures Decode(EncodeTail2(a, b)) == Some([a, b])
  {
    var d1 := (a % 4) * 16 + b / 16;
    CharRoundTrip(a / 4);
    CharRoundTrip(d1);
    CharRoundTrip((b % 16) * 4);
    assert d1 / 16 == a % 4 && d1 % 16 == b / 16;
    assert (a / 4) * 4 + d1 / 16 == a;
    assert (d1 % 16) * 16 + ((b % 16) * 4) / 4 == b;
    var s := EncodeTail2(a, b);
    assert HeadUrlSafe(s);
  }

  /** Restores the padding `rstrip('=')` removed: `=` up to a multiple of four characters. */
  function Repad(s: string): (r: string)
    ensures |s| <= |r| < |s| + 4 && |r| % 4 == 0 && r[..|s|] == s
  {
    s + Padding((4 - |s| % 4) % 4)
  }

  /** Decodes the padded form: the length must be a multiple of four and at most
      two `=` may end it. */
  function DecodePadded(s: string): (r: Option<seq<byte>>)
  {
    var body := RStripPad(s);
    if |s| % 4 == 0 && |s| - |body| <= 2 then Decode(body) else None
  }

  /** The padding `Repad` adds to an unpadded encoding is the padding `Encode` wrote. */
  lemma {:induction false} RepadCount(length: nat)
    ensures (4 - UnpaddedLength(length) % 4) % 4 == PadCount(length)
  {
    if length >= 3 {
      RepadCount(length - 3);
    }
  }

  /** The padded encoding fills whole groups of four characters. */
  lemma {:induction false} PaddedLength(length: nat)
    ensures (UnpaddedLength(length) + PadCount(length)) % 4 == 0
    ensures PadCount(length) <= 2
  {
    if length >= 3 {
      PaddedLength(length - 3);
    }
  }

  /** Re-padding the stripped text gives back the padded encoding. */
  lemma RepadRestoresEncode(bs: seq<byte>)
    ensures Repad(RStripPad(Encode(bs))) == Encode(bs)
  {
    EncodeThenStrip(bs);
    EncodeIsUnpaddedPlusPadding(bs);
    UnpaddedShape(bs);
    RepadUnpadded(Unpadded(bs), |bs|);
  }

  /** Re-padding a text of the unpadded length for `length` octets appends the
      padding the encoding of that many octets has. */
  lemma RepadUnpadded(u: string, length: nat)
    requires |u| == UnpaddedLength(length)
    ensures Repad(u) == u + Padding(PadCount(length))
  {
    RepadCount(length);
  }

  /** A text that does not end in `=`, padded with at most two `=` to a multiple
      of four characters, decodes as the text itself. */
  lemma DecodePaddedText(u: string, k: nat)
    requires |u| > 0 ==> u[|u| - 1] != Pad
    requires (|u| + k) % 4 == 0 && k <= 2
    ensures DecodePadded(u + Padding(k)) == Decode(u)
  {
    var s := u + Padding(k);
    RStripPadding(u, k);
    assert |s| == |u| + k && |s| - |RStripPad(s)| == k;
  }

  /** Text of the unpadded length of `length` octets, followed by the padding
      the encoder adds, decodes as the text alone. */
  lemma DecodeUnpaddedText(u: string, length: nat)
    requires |u| > 0 ==> u[|u| - 1] != Pad
    requires |u| == UnpaddedLength(length)
    ensures DecodePadded(u + Padding(PadCount(length))) == Decode(u)
  {
    PaddedLength(length);
    DecodePaddedText(u, PadCount(length));
  }

  /** Decoding the padded encoding gives back the octets. */
  lemma DecodeEncode(bs: seq<byte>)
    ensures DecodePadded(Encode(bs)) == Some(bs)
  {
    EncodeIsUnpaddedPlusPadding(bs);
    DecodeUnpaddedPadded(bs);
  }

  lemma DecodeUnpaddedPadded(bs: seq<byte>)
    ensures DecodePadded(Unpadded(bs) + Padding(PadCount(|bs|))) == Some(bs)
  {
    UnpaddedEnd(bs);
    DecodeUnpaddedText(Unpadded(bs), |bs|);
    DecodeUnpadded(bs);
  }

  /** The unpadded encoding has the unpadded length and does not end in `=`. */
  lemma UnpaddedEnd(bs: seq<byte>)
    ensures |Unpadded(bs)| == UnpaddedLength(|bs|)
    ensures |Unpadded(bs)| > 0 ==> Unpadded(bs)[|Unpadded(bs)| - 1] != Pad
  {
    UnpaddedShape(bs);
    var u := Unpadded(bs);
    if |u| > 0 {
      assert IsUrlSafeChar(u[|u| - 1]);
    }
  }

  /** The round trip of a JWK member: strip the padding, re-pad to a multiple of
      four, decode, and the original octets come back. */
  lemma StripRepadDecode(bs: seq<byte>)
    ensures DecodePadded(Repad(RStripPad(Encode(bs)))) == Some(bs)
  {
    RepadRestoresEncode(bs);
    DecodeEncode(bs);
  }
}

=== FILE: decimal.dfy ===
/** Decimal strings: the digit arithmetic behind `parseUnits(value, 6)` (the
    conversion of a USDC price such as "1.00" into 6-decimal base units) and the
    rendering of non-negative integers as decimal text (`Date.now().toString()`,
    Python's `f"{n}"`, JavaScript's `${n}`). */
module Decimal {

  /** USDC has 6 decimals. */
  const UsdcDecimals: nat := 6

  /** One USDC in base units, 10^6. */
  const UnitsPerUsdc: nat := 1_000_000

  predicate IsDigit(c: char) {
    '0' <= c <= '9'
  }

  predicate AllDigits(s: string) {
    forall i :: 0 <= i < |s| ==> IsDigit(s[i])
  }

  function DigitValue(c: char): (d: nat)
    requires IsDigit(c)
    ensures d < 10
  {
    (c as int) - ('0' as int)
  }

  function DigitChar(d: nat): (c: char)
    requires d < 10
    ensures IsDigit(c) && DigitValue(c) == d
  {
    (('0' as int) + d) as char
  }

  function Pow10(n: nat): (p: nat)
    ensures p >= 1
  {
    if n == 0 then 1 else 10 * Pow10(n - 1)
  }

  /** The value of a digit string read in base 10 (what `BigInt("…")` does). */
  function DigitsValue(s: string): nat
    requires AllDigits(s)
  {
    if s == [] then 0 else DigitsValue(s[..|s| - 1]) * 10 + DigitValue(s[|s| - 1])
  }

  /** Reading a concatenation shifts the left part by the length of the right part. */
  lemma {:induction false} DigitsValueAppend(a: string, b: string)
    requires AllDigits(a) && AllDigits(b)
    ensures AllDigits(a + b)
    ensures DigitsValue(a + b) == DigitsValue(a) * Pow10(|b|) + DigitsValue(b)
    decreases |b|
  {
    if b == [] {
      assert a + b == a;
    } else {
      var b' := b[..|b| - 1];
      assert (a + b)[..|a + b| - 1] == a + b';
      DigitsValueAppend(a, b');
      ShiftStep(DigitsValue(a), Pow10(|b'|), DigitsValue(b'), DigitValue(b[|b| - 1]));
    }
  }

  lemma ShiftStep(x: nat, p: nat, y: nat, d: nat)
    ensures (x * p + y) * 10 + d == x * (10 * p) + (y * 10 + d)
  {
  }

  /** A digit string of length k denotes a number below 10^k. */
  lemma {:induction false} DigitsValueBound(s: string)
    requires AllDigits(s)
    ensures DigitsValue(s) < Pow10(|s|)
  {
    if s != [] {
      DigitsValueBound(s[..|s| - 1]);
    }
  }

  /** `n.toString()` for a non-negative integer: shortest decimal form, no sign. */
  function NatToString(n: nat): (s: string)
    ensures |s| >= 1 && AllDigits(s)
    ensures DigitsValue(s) == n
    ensures |s| > 1 ==> s[0] != '0'
  {
    if n < 10 then [DigitChar(n)]
    else
      var prefix := NatToString(n / 10);
      var s := prefix + [DigitChar(n % 10)];
      assert s[..|s| - 1] == prefix;
      s
  }

  /** Decimal text of an integer, with a leading '-' when negative. */
  function IntToString(i: int): (s: string)
    ensures |s| >= 1
    ensures i >= 0 <==> s[0] != '-'
    ensures i < 0 ==> s[1..] == NatToString(-i)
    ensures i >= 0 ==> s == NatToString(i)
  {
    if i < 0 then "-" + NatToString(-i) else NatToString(i)
  }

  // ---------------------------------------------------------------------------
  // parseUnits(value, 6) on well-formed prices
  // ---------------------------------------------------------------------------

  /** Index of the first '.', or |s| when there is none. */
  function DotIndex(s: string): (k: nat)
    ensures k <= |s|
    ensures k < |s| ==> s[k] == '.'
    ensures forall i :: 0 <= i < k ==> s[i] != '.'
  {
    if s == [] then 0
    else if s[0] == '.' then 0
    else 1 + DotIndex(s[1..])
  }

  /** The prices this model accepts: digits, optionally one '.' followed by at
      most six digits. Either side of the point may be empty ("5.", ".5"), as
      for the decimal syntax `parseUnits` accepts; signs, exponents and
      fractions longer than the token's decimals are outside the model. */
  predicate WellFormedPrice(s: string) {
    var k := DotIndex(s);
    && AllDigits(s[..k])
    && (k < |s| ==> AllDigits(s[k + 1..]) && |s| - (k + 1) <= UsdcDecimals)
  }

  function IntegerPart(s: string): (ip: string)
    requires WellFormedPrice(s)
    ensures AllDigits(ip)
  {
    s[..DotIndex(s)]
  }

  function FractionPart(s: string): (fp: string)
    requires WellFormedPrice(s)
    ensures AllDigits(fp) && |fp| <= UsdcDecimals
  {
    var k := DotIndex(s);
    if k < |s| then s[k + 1..] else ""
  }

  /** `fraction.padEnd(n, '0')` */
  function PadEnd(s: string, n: nat): (r: string)
    requires AllDigits(s) && |s| <= n
    ensures |r| == n && AllDigits(r)
    ensures r[..|s|] == s
    ensures forall i :: |s| <= i < n ==> r[i] == '0'
  {
    s + seq(n - |s|, _ => '0')
  }

  /** Appending zeros scales a digit string by a power of ten. */
  lemma PadEndValue(s: string, n: nat)
    requires AllDigits(s) && |s| <= n
    ensures DigitsValue(PadEnd(s, n)) == DigitsValue(s) * Pow10(n - |s|)
  {
    var zeros := seq(n - |s|, _ => '0');
    DigitsValueAppend(s, zeros);
    ZerosValue(n - |s|);
  }

  lemma {:induction false} ZerosValue(k: nat)
    ensures AllDigits(seq(k, _ => '0'))
    ensures DigitsValue(seq(k, _ => '0')) == 0
  {
    if k > 0 {
      var z := seq(k, _ => '0');
      assert z[..k - 1] == seq(k - 1, _ => '0');
      ZerosValue(k - 1);
    }
  }

  /** `parseUnits(price, 6)`: the integer part followed by the fraction padded
      to six digits, read as one base-10 integer. The result is the price in
      base units: its quotient by 10^6 is the integer part and its remainder is
      the fraction scaled to six places. */
  function ParseUnits(price: string): (units: nat)
    requires WellFormedPrice(price)
    ensures units / UnitsPerUsdc == DigitsValue(IntegerPart(price))
    ensures units % UnitsPerUsdc
            == DigitsValue(FractionPart(price)) * Pow10(UsdcDecimals - |FractionPart(price)|)
  {
    var ip := IntegerPart(price);
    var fp := FractionPart(price);
    var padded := PadEnd(fp, UsdcDecimals);
    DigitsValueAppend(ip, padded);
    PadEndValue(fp, UsdcDecimals);
    DigitsValueBound(padded);
    assert Pow10(UsdcDecimals) == UnitsPerUsdc;
    DivModUnique(DigitsValue(ip + padded), DigitsValue(ip), DigitsValue(padded));
    DigitsValue(ip + padded)
  }

  lemma DivModUnique(n: nat, q: nat, r: nat)
    requires r < UnitsPerUsdc && n == q * UnitsPerUsdc + r
    ensures n / UnitsPerUsdc == q && n % UnitsPerUsdc == r
  {
  }

  /** Two well-formed prices denote the same amount exactly when their integer
      parts and their fractions (read to six places) agree: the amount loses
      nothing of the price it was parsed from. */
  lemma ParseUnitsInjective(p: string, q: string)
    requires WellFormedPrice(p) && WellFormedPrice(q)
    ensures ParseUnits(p) == ParseUnits(q) <==>
              && DigitsValue(IntegerPart(p)) == DigitsValue(IntegerPart(q))
              && DigitsValue(FractionPart(p)) * Pow10(UsdcDecimals - |FractionPart(p)|)
                 == DigitsValue(FractionPart(q)) * Pow10(UsdcDecimals - |FractionPart(q)|)
  {
    var a, b := ParseUnits(p), ParseUnits(q);
    assert a == (a / UnitsPerUsdc) * UnitsPerUsdc + a % UnitsPerUsdc;
    assert b == (b / UnitsPerUsdc) * UnitsPerUsdc + b % UnitsPerUsdc;
  }

  /** The example in the source's own comment: "1.00" USDC is 1_000_000 units. */
  lemma OneDollarIsOneMillionUnits()
    ensures WellFormedPrice("1.00") && ParseUnits("1.00") == 1_000_000
  {
    assert DotIndex("1.00") == 1;
    assert IntegerPart("1.00") == "1";
    assert FractionPart("1.00") == "00";
    assert "1.00"[..1] == "1";
    var u := ParseUnits("1.00");
    assert u / UnitsPerUsdc == 1;
    assert u % UnitsPerUsdc == 0;
  }
}

=== FILE: jwks.dfy ===
/** The JWKS endpoint's key conversion: an RSA public key `(n, e)` as a JSON Web
    Key whose `n` and `e` members are Base64urlUInt values (section 6.3.1 of
    RFC 7518): the minimal big-endian octets of the integer, base64url-encoded
    with the padding stripped. For a positive integer this is the form section 2
    of RFC 7518 prescribes; zero has no octets and so becomes the empty string. */
module Jwks {
  import opened Wrappers
  import Octets
  import Base64Url

  /** The key id published in the key set. */
  const KeyId: string := "openflow-key-1"

  /** The `kid` header `create_cdp_jwt` puts on the tokens it signs
      (backend/onyx/auth/cdp_jwt.py:53); the key set must publish the same id. */
  const SigningHeaderKeyId: string := "openflow-key-1"

  /** The public exponent `generate_key_pair` asks for. */
  const GeneratedExponent: nat := 65537

  /** `public_key.public_numbers()`: the modulus and the public exponent. */
  datatype RsaPublicNumbers = RsaPublicNumbers(n: nat, e: nat)

  datatype Jwk = Jwk(kty: string, use: string, kid: string, alg: string, n: string, e: string)

  /** The body of `/.well-known/jwks.json`: `{"keys": [jwk]}`. */
  datatype KeySet = KeySet(keys: seq<Jwk>)

  /** Reads a Base64urlUInt member back: re-pad, decode, read big-endian. */
  function ReadUInt(s: string): Option<nat> {
    match Base64Url.DecodePadded(Base64Url.Repad(s))
    case None => None
    case Some(bs) => Some(Octets.FromBytes(bs))
  }

  /** `urlsafe_b64encode(x.to_bytes((x.bit_length() + 7) // 8, 'big')).decode().rstrip('=')`. */
  function Base64UrlUInt(x: nat): (s: string)
    // only URL-safe alphabet characters, so no `=`
    ensures forall i :: 0 <= i < |s| ==> Base64Url.IsUrlSafeChar(s[i])
    // four characters per three octets, and two or three for a final one or two
    ensures |s| == Base64Url.UnpaddedLength(Octets.ByteLength(x))
    // reading the member back gives the integer
    ensures ReadUInt(s) == Some(x)
  {
    var bs := Octets.MinimalBytes(x);
    Base64Url.EncodeThenStrip(bs);
    Base64Url.UnpaddedShape(bs);
    Base64Url.StripRepadDecode(bs);
    Base64Url.RStripPad(Base64Url.Encode(bs))
  }

  /** Zero has no octets, so its Base64urlUInt text is empty rather than the
      "AA" that section 2 of RFC 7518 gives for a single zero octet. */
  lemma ZeroEncodesEmpty()
    ensures Base64UrlUInt(0) == ""
    ensures Base64Url.Encode([0]) == "AA=="
  {
  }

  /** `public_key_to_jwk(public_key)` */
  function PublicKeyToJwk(key: RsaPublicNumbers): (jwk: Jwk)
    // the fixed members: an RSA signing key for RS256, under the id the signer uses
    ensures jwk.kty == "RSA" && jwk.use == "sig" && jwk.alg == "RS256"
    ensures jwk.kid == KeyId == SigningHeaderKeyId
    // the modulus and the exponent can be read back from the key
    ensures ReadUInt(jwk.n) == Some(key.n) && ReadUInt(jwk.e) == Some(key.e)
    ensures forall i :: 0 <= i < |jwk.n| ==> Base64Url.IsUrlSafeChar(jwk.n[i])
    ensures forall i :: 0 <= i < |jwk.e| ==> Base64Url.IsUrlSafeChar(jwk.e[i])
  {
    Jwk("RSA", "sig", KeyId, "RS256", Base64UrlUInt(key.n), Base64UrlUInt(key.e))
  }

  /** `get_jwks()` given the outcome of loading the key: the set holding the
      one key, or status 500 when the key could not be loaded. */
  function GetJwks(loaded: Option<RsaPublicNumbers>): (r: Result<KeySet, nat>)
    ensures loaded.None? <==> r == Failure(500)
    ensures loaded.Some? ==> r == Success(KeySet([PublicKeyToJwk(loaded.value)]))
    ensures loaded.Some? ==> r.Success? && |r.value.keys| == 1
    ensures loaded.Some? ==> ReadUInt(r.value.keys[0].n) == Some(loaded.value.n)
    ensures loaded.Some? ==> ReadUInt(r.value.keys[0].e) == Some(loaded.value.e)
  {
    match loaded
    case None => Failure(500)
    case Some(key) => Success(KeySet([PublicKeyToJwk(key)]))
  }

  /** Distinct keys give distinct JWKs: the conversion loses nothing. */
  lemma PublicKeyToJwkInjective(k1: RsaPublicNumbers, k2: RsaPublicNumbers)
    requires PublicKeyToJwk(k1) == PublicKeyToJwk(k2)
    ensures k1 == k2
  {
    assert ReadUInt(PublicKeyToJwk(k1).n) == Some(k1.n);
    assert ReadUInt(PublicKeyToJwk(k2).n) == Some(k2.n);
  }

  /** `(65537).bit_length()` is 17, so it takes three octets. */
  lemma GeneratedExponentLength()
    ensures Octets.ByteLength(GeneratedExponent) == 3
  {
    Octets.Pow256IsPow2(2);
    assert Octets.Pow2(16) == 65536;
    assert Octets.Pow2(17) == 2 * Octets.Pow2(16);
    Octets.BitLengthBetween(GeneratedExponent, 17);
  }

  /** 65537 = 0x010001 is the three octets 01 00 01. */
  lemma GeneratedExponentOctets()
    ensures Octets.MinimalBytes(GeneratedExponent) == [1, 0, 1]
  {
    GeneratedExponentLength();
    ExponentToBytes();
  }

  lemma ExponentToBytes()
    ensures Octets.ToBytes(65537, 3) == [1, 0, 1]
  {
    assert Octets.ToBytes(65537, 3) == Octets.ToBytes(256, 2) + [1];
    assert Octets.ToBytes(256, 2) == Octets.ToBytes(1, 1) + [0];
    assert Octets.ToBytes(1, 1) == [1];
  }

  /** An integer whose minimal octets are 01 00 01 is published as "AQAB":
      the sextets 0, 16, 0, 1. */
  lemma OctetsOneZeroOneAreAQAB(x: nat)
    requires Octets.MinimalBytes(x) == [1, 0, 1]
    ensures Base64UrlUInt(x) == "AQAB"
  {
    var bs := Octets.MinimalBytes(x);
    Base64Url.EncodeThenStrip(bs);
    assert bs[3..] == [];
    assert Base64Url.Unpadded(bs) == Base64Url.EncodeBlock(1, 0, 1) + Base64Url.Unpadded([]);
    assert Base64Url.EncodeBlock(1, 0, 1)
        == [Base64Url.EncodeChar(0), Base64Url.EncodeChar(16), Base64Url.EncodeChar(0), Base64Url.EncodeChar(1)];
  }

  /** The generated exponent 65537 is published as "AQAB". */
  lemma GeneratedExponentIsAQAB()
    ensures Base64UrlUInt(GeneratedExponent) == "AQAB"
  {
    GeneratedExponentOctets();
    OctetsOneZeroOneAreAQAB(GeneratedExponent);
  }
}

=== FILE: octets.dfy ===
/** Non-negative integers as big-endian octet strings: Python's
    `int.to_bytes(length, 'big')`, its inverse `int.from_bytes(…, 'big')`, and
    `bit_length`. For a positive integer the minimal encoding, of
    `(bit_length + 7) // 8` octets, is the one section 2 of RFC 7518 prescribes
    for Base64urlUInt values; for zero it is empty, where that section asks
    for a single zero octet. */
module Octets {

  type byte = b: int | 0 <= b < 256

  function Pow2(n: nat): (p: nat)
    ensures p >= 1
  {
    if n == 0 then 1 else 2 * Pow2(n - 1)
  }

  function Pow256(n: nat): (p: nat)
    ensures p >= 1
  {
    if n == 0 then 1 else 256 * Pow256(n - 1)
  }

  lemma {:induction false} Pow2Add(a: nat, b: nat)
    ensures Pow2(a + b) == Pow2(a) * Pow2(b)
    decreases b
  {
    if b > 0 {
      Pow2Add(a, b - 1);
      assert Pow2(a + b) == 2 * Pow2(a + b - 1);
    }
  }

  lemma {:induction false} Pow2Monotone(a: nat, b: nat)
    requires a <= b
    ensures Pow2(a) <= Pow2(b)
    decreases b
  {
    if a < b {
      Pow2Monotone(a, b - 1);
    }
  }

  lemma {:induction false} Pow256IsPow2(n: nat)
    ensures Pow256(n) == Pow2(8 * n)
  {
    if n > 0 {
      Pow256IsPow2(n - 1);
      Pow2Add(8 * (n - 1), 8);
      assert Pow2(8) == 256;
    }
  }

  /** `int.bit_length()`: the number of binary digits, 0 for 0. */
  function BitLength(x: nat): nat {
    if x == 0 then 0 else 1 + BitLength(x / 2)
  }

  /** x has exactly `BitLength(x)` binary digits. */
  lemma {:induction false} BitLengthBounds(x: nat)
    ensures x < Pow2(BitLength(x))
    ensures x > 0 ==> Pow2(BitLength(x) - 1) <= x
  {
    if x > 0 {
      BitLengthBounds(x / 2);
    }
  }

  /** `bit_length` of x is k >= 1 exactly when x lies between 2^(k-1) and 2^k. */
  lemma BitLengthBetween(x: nat, k: nat)
    requires k >= 1
    ensures BitLength(x) == k <==> Pow2(k - 1) <= x < Pow2(k)
  {
    BitLengthBounds(x);
    var m := BitLength(x);
    if Pow2(k - 1) <= x < Pow2(k) {
      if m < k {
        Pow2Monotone(m, k - 1);
      } else if m > k {
        Pow2Monotone(k, m - 1);
      }
    }
  }

  /** `(bit_length + 7) // 8`: the fewest octets that hold x. */
  function ByteLength(x: nat): nat {
    (BitLength(x) + 7) / 8
  }

  /** The value of a big-endian octet string: `int.from_bytes(bs, 'big')`. */
  function FromBytes(bs: seq<byte>): nat {
    if bs == [] then 0 else FromBytes(bs[..|bs| - 1]) * 256 + bs[|bs| - 1]
  }

  /** `x.to_bytes(length, 'big')`; Python raises OverflowError unless x fits
      in `length` octets, which callers must therefore guarantee. The result
      reads back as x. */
  function ToBytes(x: nat, length: nat): (bs: seq<byte>)
    requires x < Pow256(length)
    ensures |bs| == length
    ensures FromBytes(bs) == x
  {
    if length == 0 then []
    else
      var prefix := ToBytes(x / 256, length - 1);
      var bs := prefix + [x % 256];
      assert bs[..|bs| - 1] == prefix;
      bs
  }

  /** k octets hold values below 256^k. */
  lemma {:induction false} FromBytesBound(bs: seq<byte>)
    ensures FromBytes(bs) < Pow256(|bs|)
  {
    if bs != [] {
      FromBytesBound(bs[..|bs| - 1]);
    }
  }

  /** Reading from the front: the first octet is worth 256^(k-1). */
  lemma {:induction false} FromBytesFront(bs: seq<byte>)
    requires |bs| >= 1
    ensures FromBytes(bs) == bs[0] * Pow256(|bs| - 1) + FromBytes(bs[1..])
  {
    if |bs| > 1 {
      var init := bs[..|bs| - 1];
      var tail := bs[1..];
      FromBytesFront(init);
      assert init[1..] == tail[..|tail| - 1];
      assert tail[|tail| - 1] == bs[|bs| - 1];
      assert FromBytes(tail) == FromBytes(init[1..]) * 256 + bs[|bs| - 1];
      ShiftOctet(bs[0], Pow256(|bs| - 2), FromBytes(init[1..]), bs[|bs| - 1]);
    } else {
      assert bs[..0] == [];
      assert bs[1..] == [];
    }
  }

  lemma ShiftOctet(a: nat, p: nat, r: nat, d: nat)
    ensures (a * p + r) * 256 + d == a * (256 * p) + (r * 256 + d)
  {
  }

  /** x fits in `ByteLength(x)` octets, and for x > 0 not in one octet fewer. */
  lemma ByteLengthFits(x: nat)
    ensures x < Pow256(ByteLength(x))
    ensures x > 0 ==> ByteLength(x) >= 1 && Pow256(ByteLength(x) - 1) <= x
  {
    var b := BitLength(x);
    var l := ByteLength(x);
    BitLengthBounds(x);
    Pow256IsPow2(l);
    Pow2Monotone(b, 8 * l);
    if x > 0 {
      Pow256IsPow2(l - 1);
      Pow2Monotone(8 * (l - 1), b - 1);
    }
  }

  /** The octets `public_key_to_jwk` produces for x: `(bit_length + 7) // 8`
      of them, big-endian. */
  function MinimalBytes(x: nat): (bs: seq<byte>)
    ensures |bs| == ByteLength(x)
    ensures FromBytes(bs) == x
  {
    ByteLengthFits(x);
    ToBytes(x, ByteLength(x))
  }

  /** The encoding of a positive integer is minimal: it is non-empty and its
      leading octet is not zero; zero encodes as no octets at all. */
  lemma MinimalBytesHasNoLeadingZero(x: nat)
    ensures x == 0 ==> MinimalBytes(x) == []
    ensures x > 0 ==> |MinimalBytes(x)| >= 1 && MinimalBytes(x)[0] != 0
  {
    if x > 0 {
      var bs := MinimalBytes(x);
      ByteLengthFits(x);
      FromBytesFront(bs);
      FromBytesBound(bs[1..]);
    }
  }
}

=== FILE: payment.dfy ===
/** The x402 pay-per-invocation client: minting a payment session, executing one
    transfer of Base's USDC token through the user's wallet, and checking a transaction's
    receipt. The chain is an oracle: the wallet's `writeContract` either returns a
    transaction hash or throws; the chain eventually mines a transaction with a
    status, or never; and each wait for a receipt is a separate oracle that
    yields a receipt or throws (a timeout, an RPC error) whatever was mined. */
module Payment {
  import opened Wrappers
  import Decimal

  /** The USDC token contract on Base mainnet. */
  const UsdcBase: string := "0x833589fCD6eDb6E08f4c7C32D4f71b54bdA02913"

  /** A session authorises spending for one hour. */
  const SessionValiditySeconds: nat := 3600

  /** The only error `executePayment` ever raises. */
  const PaymentFailedMessage: string := "Payment execution failed"

  /** `{maxAmount, validUntil, nonce}`: amount in USDC base units, expiry in
      Unix seconds, nonce as decimal milliseconds. */
  datatype PaymentSession = PaymentSession(maxAmount: nat, validUntil: int, nonce: string)

  /** An ERC-20 call submitted through `writeContract`: the token contract, the
      ABI function, and its `[recipient, amount]` arguments. */
  datatype ContractCall = ContractCall(contract: string, functionName: string, recipient: string, amount: nat)

  datatype SubmitOutcome = Submitted(hash: string) | SubmitThrew

  datatype ReceiptStatus = StatusSuccess | StatusReverted

  /** What one `waitForTransactionReceipt` call gives for a hash: a receipt or
      an exception. Two waits on the same hash may give different outcomes. */
  datatype ReceiptOutcome = Receipt(status: ReceiptStatus) | WaitThrew

  /** The chain's record: the status a transaction was mined with, or `None`
      while it is not mined. */
  type Ledger = string -> Option<ReceiptStatus>

  /** A wait is truthful to the chain: a receipt it returns carries the status
      the transaction was mined with. It may still throw whatever was mined. */
  ghost predicate WaitAgreesWith(wait: string -> ReceiptOutcome, mined: Ledger) {
    forall h :: wait(h).Receipt? ==> mined(h) == Some(wait(h).status)
  }

  /** The user's wallet: an address and the signing capability `writeContract`. */
  datatype Wallet = Wallet(address: string, writeContract: ContractCall -> SubmitOutcome)

  /** What one `executePayment` call did: the contract calls it submitted, the
      hashes it waited on, and the hash it returned or the error it threw. */
  datatype PaymentRun = PaymentRun(calls: seq<ContractCall>, waitedOn: seq<string>, outcome: Result<string, string>)

  /** `transfer(recipient, amount)` on the USDC contract. */
  function TransferCall(recipient: string, amount: nat): ContractCall {
    ContractCall(UsdcBase, "transfer", recipient, amount)
  }

  /** `createPaymentSession(userWallet, workflowPrice)`. The clock is read twice,
      once for the expiry (`nowMs`) and once for the nonce (`nonceClockMs`). */
  function CreatePaymentSession(userWallet: Wallet, workflowPrice: string, nowMs: nat, nonceClockMs: nat)
    : (session: PaymentSession)
    requires Decimal.WellFormedPrice(workflowPrice)
    // the cap is the price in 6-decimal base units
    ensures session.maxAmount / Decimal.UnitsPerUsdc == Decimal.DigitsValue(Decimal.IntegerPart(workflowPrice))
    ensures session.maxAmount % Decimal.UnitsPerUsdc
            == Decimal.DigitsValue(Decimal.FractionPart(workflowPrice))
               * Decimal.Pow10(Decimal.UsdcDecimals - |Decimal.FractionPart(workflowPrice)|)
    // the current second is exactly one hour before the expiry
    ensures (session.validUntil - SessionValiditySeconds) * 1000 <= nowMs
    ensures nowMs < (session.validUntil - SessionValiditySeconds + 1) * 1000
    // so the session is still valid an hour from now and expired an hour and a second from now
    ensures nowMs < session.validUntil * 1000
    // the nonce is the clock reading written in decimal
    ensures Decimal.AllDigits(session.nonce) && Decimal.DigitsValue(session.nonce) == nonceClockMs
    ensures |session.nonce| >= 1 && (|session.nonce| > 1 ==> session.nonce[0] != '0')
  {
    PaymentSession(
      Decimal.ParseUnits(workflowPrice),
      nowMs / 1000 + SessionValiditySeconds,
      Decimal.NatToString(nonceClockMs))
  }

  /** Nothing requires the cap to be positive: a price of "0" is accepted and
      gives a session that caps the payment at zero units. */
  lemma ZeroPriceZeroCap(userWallet: Wallet, nowMs: nat, nonceClockMs: nat)
    ensures Decimal.WellFormedPrice("0")
    ensures CreatePaymentSession(userWallet, "0", nowMs, nonceClockMs).maxAmount == 0
  {
  }

  /** The wallet plays no part in minting a session: the result depends only on
      the price and the clock. */
  lemma SessionIgnoresWallet(w1: Wallet, w2: Wallet, workflowPrice: string, nowMs: nat, nonceClockMs: nat)
    requires Decimal.WellFormedPrice(workflowPrice)
    ensures CreatePaymentSession(w1, workflowPrice, nowMs, nonceClockMs)
         == CreatePaymentSession(w2, workflowPrice, nowMs, nonceClockMs)
  {
  }

  /** `executePayment(userWallet, session, actualAmount)`: one `transfer` of
      `parseUnits(actualAmount, 6)` to the platform wallet, a wait for its
      receipt, and the hash if and only if that wait returns a success
      receipt. `wait` is this call's own wait for a receipt. Every
      failure, whether the submission threw, the wait threw or the transfer
      reverted, is rethrown as the single message "Payment execution failed".
      The session is accepted but never consulted. */
  function ExecutePayment(
    userWallet: Wallet, session: PaymentSession, actualAmount: string,
    platformWallet: string, wait: string -> ReceiptOutcome)
    : (run: PaymentRun)
    requires Decimal.WellFormedPrice(actualAmount)
    // exactly one submission: a USDC transfer of the parsed amount to the platform
    ensures |run.calls| == 1
    ensures run.calls[0].contract == UsdcBase && run.calls[0].functionName == "transfer"
    ensures run.calls[0].recipient == platformWallet && run.calls[0].amount == Decimal.ParseUnits(actualAmount)
    // a receipt is awaited exactly when the submission produced a hash
    ensures userWallet.writeContract(run.calls[0]).Submitted? ==>
              run.waitedOn == [userWallet.writeContract(run.calls[0]).hash]
    ensures userWallet.writeContract(run.calls[0]).SubmitThrew? ==> run.waitedOn == []
    // the hash comes back if and only if the wait returned a success receipt
    ensures run.outcome.Success? <==>
              && userWallet.writeContract(run.calls[0]).Submitted?
              && wait(userWallet.writeContract(run.calls[0]).hash) == Receipt(StatusSuccess)
    ensures run.outcome.Success? ==> run.outcome.value == userWallet.writeContract(run.calls[0]).hash
    ensures run.outcome.Failure? ==> run.outcome.error == PaymentFailedMessage
  {
    var call := TransferCall(platformWallet, Decimal.ParseUnits(actualAmount));
    match userWallet.writeContract(call)
    case SubmitThrew =>
      PaymentRun([call], [], Failure(PaymentFailedMessage))
    case Submitted(hash) =>
      var outcome :=
        match wait(hash)
        case Receipt(StatusSuccess) => Success(hash)
        case Receipt(StatusReverted) => Failure(PaymentFailedMessage)
        case WaitThrew => Failure(PaymentFailedMessage);
      PaymentRun([call], [hash], outcome)
  }

  /** Neither the cap nor the expiry of the session affects the payment. */
  lemma ExecuteIgnoresSession(
    userWallet: Wallet, s1: PaymentSession, s2: PaymentSession, actualAmount: string,
    platformWallet: string, wait: string -> ReceiptOutcome)
    requires Decimal.WellFormedPrice(actualAmount)
    ensures ExecutePayment(userWallet, s1, actualAmount, platformWallet, wait)
         == ExecutePayment(userWallet, s2, actualAmount, platformWallet, wait)
  {
  }

  /** There is no expiry and no cap check: a session that expired before the
      current time and whose cap is below the requested amount still leads to
      the transfer being submitted, and to a returned hash when it succeeds. */
  lemma ExpiredOverCapSessionStillPays(
    userWallet: Wallet, session: PaymentSession, actualAmount: string,
    platformWallet: string, wait: string -> ReceiptOutcome, nowMs: nat)
    requires Decimal.WellFormedPrice(actualAmount)
    requires session.validUntil * 1000 < nowMs
    requires session.maxAmount < Decimal.ParseUnits(actualAmount)
    requires userWallet.writeContract(TransferCall(platformWallet, Decimal.ParseUnits(actualAmount))).Submitted?
    requires wait(userWallet.writeContract(TransferCall(platformWallet, Decimal.ParseUnits(actualAmount))).hash)
             == Receipt(StatusSuccess)
    ensures var run := ExecutePayment(userWallet, session, actualAmount, platformWallet, wait);
            && run.calls[0].amount > session.maxAmount
            && run.outcome.Success?
  {
  }

  /** `verifyPayment(txHash)` with its own wait for the receipt: never throws;
      true exactly when that wait returns a success receipt, false for a
      reverted receipt or when the wait throws. */
  function VerifyPayment(txHash: string, wait: string -> ReceiptOutcome): (ok: bool)
    ensures ok <==> wait(txHash).Receipt? && wait(txHash).status == StatusSuccess
    ensures !ok <==> wait(txHash) == WaitThrew || wait(txHash) == Receipt(StatusReverted)
  {
    match wait(txHash)
    case Receipt(StatusSuccess) => true
    case Receipt(StatusReverted) => false
    case WaitThrew => false
  }

  /** The verdict is a function of what the wait returns for that hash alone:
      two waits that return the same outcome for it give the same verdict. */
  lemma VerifyDependsOnlyOnReceipt(txHash: string, w1: string -> ReceiptOutcome, w2: string -> ReceiptOutcome)
    requires w1(txHash) == w2(txHash)
    ensures VerifyPayment(txHash, w1) == VerifyPayment(txHash, w2)
  {
  }

  /** A true verdict is sound: the transaction was mined, with success. A false
      one proves nothing about the chain: the wait may have thrown while the
      transaction was mined with success. */
  lemma VerifySoundNotComplete(txHash: string, wait: string -> ReceiptOutcome, mined: Ledger)
    requires WaitAgreesWith(wait, mined)
    ensures VerifyPayment(txHash, wait) ==> mined(txHash) == Some(StatusSuccess)
    ensures wait(txHash) == WaitThrew ==> !VerifyPayment(txHash, wait)
  {
  }

  /** A hash returned by `executePayment` is a transfer mined with success. */
  lemma ExecutedHashIsMined(
    userWallet: Wallet, session: PaymentSession, actualAmount: string,
    platformWallet: string, wait: string -> ReceiptOutcome, mined: Ledger)
    requires Decimal.WellFormedPrice(actualAmount)
    requires WaitAgreesWith(wait, mined)
    ensures var run := ExecutePayment(userWallet, session, actualAmount, platformWallet, wait);
            run.outcome.Success? ==> mined(run.outcome.value) == Some(StatusSuccess)
  {
  }

  /** Charged without a hash: when `executePayment`'s wait throws (a timeout, an
      RPC error) but the transfer is mined with success, the payment reports
      "Payment execution failed" although the amount was transferred, and a
      later `verifyPayment` of the same hash, whose wait does see the receipt,
      says true. */
  lemma ChargedWithoutHash(
    userWallet: Wallet, session: PaymentSession, actualAmount: string, platformWallet: string,
    executeWait: string -> ReceiptOutcome, verifyWait: string -> ReceiptOutcome, mined: Ledger)
    requires Decimal.WellFormedPrice(actualAmount)
    requires WaitAgreesWith(executeWait, mined) && WaitAgreesWith(verifyWait, mined)
    requires userWallet.writeContract(TransferCall(platformWallet, Decimal.ParseUnits(actualAmount))).Submitted?
    requires var hash := userWallet.writeContract(TransferCall(platformWallet, Decimal.ParseUnits(actualAmount))).hash;
             && executeWait(hash) == WaitThrew
             && mined(hash) == Some(StatusSuccess)
             && verifyWait(hash) == Receipt(StatusSuccess)
    ensures var run := ExecutePayment(userWallet, session, actualAmount, platformWallet, executeWait);
            var hash := userWallet.writeContract(run.calls[0]).hash;
            && run.outcome == Failure(PaymentFailedMessage)
            && run.waitedOn == [hash]
            && mined(hash) == Some(StatusSuccess)
            && VerifyPayment(hash, verifyWait)
  {
  }

  /** Execution and verification agree when both waits see the same receipt
      for the submitted hash: `executePayment` then returns a hash exactly when
      the transfer was submitted and `verifyPayment` of that hash says true. */
  lemma ExecuteAgreesWithVerify(
    userWallet: Wallet, session: PaymentSession, actualAmount: string,
    platformWallet: string, executeWait: string -> ReceiptOutcome, verifyWait: string -> ReceiptOutcome)
    requires Decimal.WellFormedPrice(actualAmount)
    requires var submitted := userWallet.writeContract(TransferCall(platformWallet, Decimal.ParseUnits(actualAmount)));
             submitted.Submitted? ==> executeWait(submitted.hash) == verifyWait(submitted.hash)
    ensures var run := ExecutePayment(userWallet, session, actualAmount, platformWallet, executeWait);
            var submitted := userWallet.writeContract(run.calls[0]);
            run.outcome.Success? <==> submitted.Submitted? && VerifyPayment(submitted.hash, verifyWait)
  {
  }
}

=== FILE: trace.dfy ===
/** Handler traces shared by the two React components: each entry pairs an
    event with the component state right after it. */
module Trace {
  /** One entry of a handler's trace: what happened, and the state right after it. */
  datatype Stamped<E, S> = Stamped(event: E, after: S)

  /** The state before the k-th entry: the initial state, or the state after
      the previous entry. */
  function Before<E, S>(s: S, trace: seq<Stamped<E, S>>, k: nat): S
    requires k <= |trace|
  {
    if k == 0 then s else trace[k - 1].after
  }

  /** Every recorded state is the previous one with the entry's event applied
      by `step`, the component's state setters. */
  predicate FollowsStep<E, S(==)>(step: (S, E) -> S, s: S, trace: seq<Stamped<E, S>>) {
    forall k :: 0 <= k < |trace| ==> trace[k].after == step(Before(s, trace, k), trace[k].event)
  }
}

=== FILE: workflow_executor.dfy ===
/** The pay-and-execute panel: its `handleExecute` click handler creates a
    payment session, executes the USDC payment, and only then calls
    `onExecute(workflowId, txHash)`. The handler is a transition over the
    component state `(executing, error, txHash)`: its effects are recorded, in
    the order they happen, as a trace whose entries pair each event with the
    component state right after it. The wallet and its readiness flag, which the
    component reads without binding them, are inputs of the handler. */
module WorkflowExecutor {
  import opened Wrappers
  import opened Trace
  import Decimal
  import Payment

  /** A workflow as this panel lists it: the price is a USDC decimal string. */
  datatype Workflow = Workflow(id: string, name: string, description: string, price: string)

  datatype ExecutorState = ExecutorState(executing: Option<string>, error: Option<string>, txHash: Option<string>)

  /** A value thrown by `onExecute`: an `Error` with its message, or anything else. */
  datatype Thrown = ErrorObject(message: string) | OtherValue

  /** How the awaited `onExecute` promise settles. */
  datatype CallbackOutcome = Completed | Threw(thrown: Thrown)

  datatype ExecutorEvent =
    | SetExecuting(executing: Option<string>)
    | SetError(error: Option<string>)
    | SetTxHash(txHash: Option<string>)
    | SessionCreated(session: Payment.PaymentSession)
    | PaymentAttempted(session: Payment.PaymentSession, amount: string, payment: Payment.PaymentRun)
    | OnExecuteCalled(workflowId: string, hash: string)

  /** One entry of a handler's trace. */
  type Entry = Stamped<ExecutorEvent, ExecutorState>

  function Step(s: ExecutorState, e: ExecutorEvent): ExecutorState {
    match e
    case SetExecuting(v) => s.(executing := v)
    case SetError(v) => s.(error := v)
    case SetTxHash(v) => s.(txHash := v)
    case _ => s
  }

  /** Every recorded state is the previous one with the entry's event applied. */
  predicate Consistent(s: ExecutorState, trace: seq<Entry>) {
    FollowsStep(Step, s, trace)
  }

  datatype ExecutorRun = ExecutorRun(trace: seq<Entry>, final: ExecutorState)

  const WalletNotReadyMessage: string := "Wallet not initialized. Please refresh the page."
  const UnknownErrorMessage: string := "Unknown error"

  /** `err instanceof Error ? err.message : 'Unknown error'` */
  function MessageOf(t: Thrown): string {
    match t
    case ErrorObject(m) => m
    case OtherValue => UnknownErrorMessage
  }

  /** Every execute button is disabled while a workflow is executing. */
  predicate ButtonsDisabled(s: ExecutorState) {
    s.executing != None
  }

  /** The steps that reach outside the component: minting the session, paying,
      and calling back into the parent. */
  predicate ReachesOut(e: ExecutorEvent) {
    e.SessionCreated? || e.PaymentAttempted? || e.OnExecuteCalled?
  }

  /** The ordering guarantee: a payment is attempted only right after its own
      session was created, for the workflow's price, and for an amount equal to
      that session's cap; `onExecute` is called only right after `txHash` was
      set to the hash that the preceding payment returned. */
  predicate PaidBeforeExecute(trace: seq<Entry>, w: Workflow) {
    && (forall k :: 0 <= k < |trace| && trace[k].event.PaymentAttempted? ==>
          && k >= 1
          && trace[k - 1].event == SessionCreated(trace[k].event.session)
          && trace[k].event.amount == w.price
          && |trace[k].event.payment.calls| == 1
          && trace[k].event.payment.calls[0].amount == trace[k].event.session.maxAmount)
    && (forall k :: 0 <= k < |trace| && trace[k].event.OnExecuteCalled? ==>
          && k >= 3
          && trace[k].event.workflowId == w.id
          && trace[k - 1].event == SetTxHash(Some(trace[k].event.hash))
          && trace[k - 2].event.PaymentAttempted?
          && trace[k - 2].event.payment.outcome == Success(trace[k].event.hash)
          && trace[k - 3].event == SessionCreated(trace[k - 2].event.session))
  }

  /** The wallet is usable: present and initialised. */
  predicate WalletReady(wallet: Option<Payment.Wallet>, isInitialized: bool) {
    wallet.Some? && isInitialized
  }

  /** The transfer the handler would submit was submitted, and the payment's
      wait for its receipt returned a success receipt. This is what the handler
      can observe; the transfer may be mined with success without it. */
  predicate WaitReportsSuccess(
    w: Workflow, wallet: Payment.Wallet, platformWallet: string, wait: string -> Payment.ReceiptOutcome)
    requires Decimal.WellFormedPrice(w.price)
  {
    var submitted := wallet.writeContract(Payment.TransferCall(platformWallet, Decimal.ParseUnits(w.price)));
    submitted.Submitted? && wait(submitted.hash) == Payment.Receipt(Payment.StatusSuccess)
  }

  /** The first three entries of a click with a usable wallet: claim the
      buttons for the workflow, clear the error, clear the hash. */
  function Opening(s: ExecutorState, w: Workflow): (opening: seq<Entry>)
    ensures |opening| == 3
  {
    [ Stamped(SetExecuting(Some(w.id)), s.(executing := Some(w.id))),
      Stamped(SetError(None), ExecutorState(Some(w.id), None, s.txHash)),
      Stamped(SetTxHash(None), ExecutorState(Some(w.id), None, None)) ]
  }

  /** The trace when the payment threw `message`: the catch block records it
      and releases the buttons. */
  function FailedTrace(s: ExecutorState, w: Workflow, session: Payment.PaymentSession,
                       payment: Payment.PaymentRun, message: string): seq<Entry>
  {
    var o := Opening(s, w);
    var s3 := o[2].after;
    var s6 := s3.(error := Some(message));
    var s7 := s6.(executing := None);
    [ o[0], o[1], o[2], Stamped(SessionCreated(session), s3), Stamped(PaymentAttempted(session, w.price, payment), s3),
      Stamped(SetError(Some(message)), s6), Stamped(SetExecuting(None), s7) ]
  }

  /** The trace when the payment returned `hash` and `onExecute` completed. */
  function CompletedTrace(s: ExecutorState, w: Workflow, session: Payment.PaymentSession,
                          payment: Payment.PaymentRun, hash: string): seq<Entry>
  {
    var o := Opening(s, w);
    var s3 := o[2].after;
    var s6 := s3.(txHash := Some(hash));
    var s8 := s6.(executing := None);
    [ o[0], o[1], o[2], Stamped(SessionCreated(session), s3), Stamped(PaymentAttempted(session, w.price, payment), s3),
      Stamped(SetTxHash(Some(hash)), s6), Stamped(OnExecuteCalled(w.id, hash), s6),
      Stamped(SetExecuting(None), s8) ]
  }

  /** The trace when the payment returned `hash` and `onExecute` threw `message`. */
  function ThrewTrace(s: ExecutorState, w: Workflow, session: Payment.PaymentSession,
                      payment: Payment.PaymentRun, hash: string, message: string): seq<Entry>
  {
    var o := Opening(s, w);
    var s3 := o[2].after;
    var s6 := s3.(txHash := Some(hash));
    var s8 := s6.(error := Some(message));
    var s9 := s8.(executing := None);
    [ o[0], o[1], o[2], Stamped(SessionCreated(session), s3), Stamped(PaymentAttempted(session, w.price, payment), s3),
      Stamped(SetTxHash(Some(hash)), s6), Stamped(OnExecuteCalled(w.id, hash), s6),
      Stamped(SetError(Some(message)), s8), Stamped(SetExecuting(None), s9) ]
  }

  /** The trace of a click with a usable wallet, given the session, the
      payment's run and how `onExecute` settles when it is called. */
  function ReadyTrace(s: ExecutorState, w: Workflow, session: Payment.PaymentSession,
                      payment: Payment.PaymentRun, callback: CallbackOutcome): seq<Entry>
  {
    match payment.outcome
    case Failure(message) => FailedTrace(s, w, session, payment, message)
    case Success(hash) =>
      match callback
      case Completed => CompletedTrace(s, w, session, payment, hash)
      case Threw(t) => ThrewTrace(s, w, session, payment, hash, MessageOf(t))
  }

  /** What holds of every trace of a click with a usable wallet, whatever the
      outcome: the opening entries, the session at index 3 and the payment at
      index 4, `onExecute` at index 6 exactly when the payment returned a hash,
      states that follow the events, the buttons held until the last entry,
      and the ordering guarantee. */
  lemma ReadyTraceFacts(
    s: ExecutorState, w: Workflow, session: Payment.PaymentSession,
    payment: Payment.PaymentRun, callback: CallbackOutcome)
    requires |payment.calls| == 1 && payment.calls[0].amount == session.maxAmount
    ensures var t := ReadyTrace(s, w, session, payment, callback);
            && |t| >= 7
            && t[0] == Opening(s, w)[0] && t[1] == Opening(s, w)[1] && t[2] == Opening(s, w)[2]
            && (forall k :: 0 <= k < |t| ==>
                  && (t[k].event.SessionCreated? <==> k == 3)
                  && (t[k].event.PaymentAttempted? <==> k == 4)
                  && (t[k].event.OnExecuteCalled? <==> k == 6 && payment.outcome.Success?))
            && t[3].event == SessionCreated(session)
            && t[4].event == PaymentAttempted(session, w.price, payment)
            && (payment.outcome.Success? ==>
                  t[5].event == SetTxHash(Some(payment.outcome.value))
                  && t[6].event == OnExecuteCalled(w.id, payment.outcome.value))
            && Consistent(s, t)
            && (forall k :: 0 <= k < |t| - 1 ==> t[k].after.executing == Some(w.id))
            && t[|t| - 1].after.executing == None
  {
  }

  /** A trace with the session at index 3, its payment at index 4, and
      `onExecute` only at index 6, right after the hash the payment returned was
      recorded, satisfies the ordering guarantee. */
  lemma ShapedTraceIsOrdered(
    t: seq<Entry>, w: Workflow, session: Payment.PaymentSession, payment: Payment.PaymentRun)
    requires |payment.calls| == 1 && payment.calls[0].amount == session.maxAmount
    requires |t| >= 7
    requires forall k :: 0 <= k < |t| ==>
               && (t[k].event.PaymentAttempted? <==> k == 4)
               && (t[k].event.OnExecuteCalled? <==> k == 6 && payment.outcome.Success?)
    requires t[3].event == SessionCreated(session)
    requires t[4].event == PaymentAttempted(session, w.price, payment)
    requires payment.outcome.Success? ==>
               t[5].event == SetTxHash(Some(payment.outcome.value))
               && t[6].event == OnExecuteCalled(w.id, payment.outcome.value)
    ensures PaidBeforeExecute(t, w)
  {
    forall k | 0 <= k < |t| && t[k].event.PaymentAttempted?
      ensures k >= 1 && t[k - 1].event == SessionCreated(t[k].event.session)
      ensures t[k].event.amount == w.price
      ensures |t[k].event.payment.calls| == 1
      ensures t[k].event.payment.calls[0].amount == t[k].event.session.maxAmount
    {
      assert k == 4;
    }
    forall k | 0 <= k < |t| && t[k].event.OnExecuteCalled?
      ensures k >= 3 && t[k].event.workflowId == w.id
      ensures t[k - 1].event == SetTxHash(Some(t[k].event.hash))
      ensures t[k - 2].event.PaymentAttempted? && t[k - 2].event.payment.outcome == Success(t[k].event.hash)
      ensures t[k - 3].event == SessionCreated(t[k - 2].event.session)
    {
      assert k == 6;
    }
  }

  /** Where a click with a usable wallet leaves the error and the hash: the
      payment's error and no hash when it threw; its hash otherwise, with the
      error `onExecute` threw, if any. */
  lemma ReadyTraceFinal(
    s: ExecutorState, w: Workflow, session: Payment.PaymentSession,
    payment: Payment.PaymentRun, callback: CallbackOutcome)
    ensures var t := ReadyTrace(s, w, session, payment, callback);
            var last := t[|t| - 1].after;
            && last.executing == None
            && (payment.outcome.Failure? ==> last.error == Some(payment.outcome.error) && last.txHash == None)
            && (payment.outcome.Success? ==> last.txHash == Some(payment.outcome.value))
            && (payment.outcome.Success? && callback.Completed? ==> last.error == None)
            && (payment.outcome.Success? && callback.Threw? ==> last.error == Some(MessageOf(callback.thrown)))
  {
  }

  /** `handleExecute(workflow)`. `nowMs` and `nonceClockMs` are the two clock
      readings taken while the session is created; `wait` is the outcome of
      the payment's wait for a receipt; `onExecute` is the parent's callback. */
  function HandleExecute(
    s: ExecutorState, w: Workflow, wallet: Option<Payment.Wallet>, isInitialized: bool,
    nowMs: nat, nonceClockMs: nat, platformWallet: string,
    wait: string -> Payment.ReceiptOutcome, onExecute: (string, string) -> CallbackOutcome)
    : (run: ExecutorRun)
    requires Decimal.WellFormedPrice(w.price)
    ensures run.final == Before(s, run.trace, |run.trace|)
    // an unusable wallet: the error is set and nothing reaches outside the component
    ensures !WalletReady(wallet, isInitialized) ==>
              && run.final == s.(error := Some(WalletNotReadyMessage))
              && forall k :: 0 <= k < |run.trace| ==> !ReachesOut(run.trace[k].event)
    // a usable wallet: the handler starts by claiming the buttons and always releases them
    ensures WalletReady(wallet, isInitialized) ==>
              && |run.trace| >= 3
              && run.trace[0].after == ExecutorState(Some(w.id), s.error, s.txHash)
              && run.trace[1].after == ExecutorState(Some(w.id), None, s.txHash)
              && run.trace[2].after == ExecutorState(Some(w.id), None, None)
              && run.final.executing == None
  {
    if wallet.None? || !isInitialized then
      var s1 := s.(error := Some(WalletNotReadyMessage));
      ExecutorRun([Stamped(SetError(Some(WalletNotReadyMessage)), s1)], s1)
    else
      var userWallet := wallet.value;
      // step 1: the payment session
      var session := Payment.CreatePaymentSession(userWallet, w.price, nowMs, nonceClockMs);
      // step 2: the payment, for the same price string
      var payment := Payment.ExecutePayment(userWallet, session, w.price, platformWallet, wait);
      // step 3: the workflow with the payment proof, only when the payment returned a hash
      var callback := if payment.outcome.Success? then onExecute(w.id, payment.outcome.value) else Completed;
      var trace := ReadyTrace(s, w, session, payment, callback);
      ReadyTraceFacts(s, w, session, payment, callback);
      ExecutorRun(trace, trace[|trace| - 1].after)
  }

  /** The states recorded in a handler's trace are exactly those obtained by
      applying its events one after another to the initial state. */
  lemma StatesFollowEvents(
    s: ExecutorState, w: Workflow, wallet: Option<Payment.Wallet>, isInitialized: bool,
    nowMs: nat, nonceClockMs: nat, platformWallet: string,
    wait: string -> Payment.ReceiptOutcome, onExecute: (string, string) -> CallbackOutcome)
    requires Decimal.WellFormedPrice(w.price)
    ensures Consistent(s, HandleExecute(s, w, wallet, isInitialized, nowMs, nonceClockMs, platformWallet, wait, onExecute).trace)
  {
    if WalletReady(wallet, isInitialized) {
      var session := Payment.CreatePaymentSession(wallet.value, w.price, nowMs, nonceClockMs);
      var payment := Payment.ExecutePayment(wallet.value, session, w.price, platformWallet, wait);
      var callback := if payment.outcome.Success? then onExecute(w.id, payment.outcome.value) else Completed;
      ReadyTraceFacts(s, w, session, payment, callback);
    }
  }

  /** Session, then payment, then `onExecute`: every trace satisfies the
      ordering guarantee, so `onExecute` only ever sees the hash the payment
      returned, and only after `txHash` shows it. */
  lemma SessionPaymentExecuteOrder(
    s: ExecutorState, w: Workflow, wallet: Option<Payment.Wallet>, isInitialized: bool,
    nowMs: nat, nonceClockMs: nat, platformWallet: string,
    wait: string -> Payment.ReceiptOutcome, onExecute: (string, string) -> CallbackOutcome)
    requires Decimal.WellFormedPrice(w.price)
    ensures PaidBeforeExecute(
              HandleExecute(s, w, wallet, isInitialized, nowMs, nonceClockMs, platformWallet, wait, onExecute).trace, w)
  {
    if WalletReady(wallet, isInitialized) {
      var session := Payment.CreatePaymentSession(wallet.value, w.price, nowMs, nonceClockMs);
      var payment := Payment.ExecutePayment(wallet.value, session, w.price, platformWallet, wait);
      var callback := if payment.outcome.Success? then onExecute(w.id, payment.outcome.value) else Completed;
      var t := ReadyTrace(s, w, session, payment, callback);
      assert HandleExecute(s, w, wallet, isInitialized, nowMs, nonceClockMs, platformWallet, wait, onExecute).trace == t;
      ReadyTraceFacts(s, w, session, payment, callback);
      ShapedTraceIsOrdered(t, w, session, payment);
    } else {
      var t := HandleExecute(s, w, wallet, isInitialized, nowMs, nonceClockMs, platformWallet, wait, onExecute).trace;
      assert |t| == 1 && t[0].event.SetError?;
    }
  }

  /** With a usable wallet: one session (the fourth entry), one payment (the
      fifth), and a call of `onExecute` (the seventh) exactly when the payment's
      wait returned a success receipt. */
  lemma OnePaymentPerClick(
    s: ExecutorState, w: Workflow, wallet: Option<Payment.Wallet>, isInitialized: bool,
    nowMs: nat, nonceClockMs: nat, platformWallet: string,
    wait: string -> Payment.ReceiptOutcome, onExecute: (string, string) -> CallbackOutcome)
    requires Decimal.WellFormedPrice(w.price)
    requires WalletReady(wallet, isInitialized)
    ensures var t := HandleExecute(s, w, wallet, isInitialized, nowMs, nonceClockMs, platformWallet, wait, onExecute).trace;
            forall k :: 0 <= k < |t| ==>
              && (t[k].event.SessionCreated? <==> k == 3)
              && (t[k].event.PaymentAttempted? <==> k == 4)
              && (t[k].event.OnExecuteCalled? <==> k == 6 && WaitReportsSuccess(w, wallet.value, platformWallet, wait))
  {
    var session := Payment.CreatePaymentSession(wallet.value, w.price, nowMs, nonceClockMs);
    var payment := Payment.ExecutePayment(wallet.value, session, w.price, platformWallet, wait);
    var callback := if payment.outcome.Success? then onExecute(w.id, payment.outcome.value) else Completed;
    ReadyTraceFacts(s, w, session, payment, callback);
  }

  /** With a usable wallet the handler ends with nothing executing; a failed
      payment leaves "Payment execution failed" and no hash, one whose wait
      reported success leaves its hash and, if `onExecute` threw, that error's message. */
  lemma FinalState(
    s: ExecutorState, w: Workflow, wallet: Option<Payment.Wallet>, isInitialized: bool,
    nowMs: nat, nonceClockMs: nat, platformWallet: string,
    wait: string -> Payment.ReceiptOutcome, onExecute: (string, string) -> CallbackOutcome)
    requires Decimal.WellFormedPrice(w.price)
    requires WalletReady(wallet, isInitialized)
    ensures var run := HandleExecute(s, w, wallet, isInitialized, nowMs, nonceClockMs, platformWallet, wait, onExecute);
            && run.final.executing == None
            && (!WaitReportsSuccess(w, wallet.value, platformWallet, wait) ==>
                  run.final.error == Some(Payment.PaymentFailedMessage) && run.final.txHash == None)
            && (WaitReportsSuccess(w, wallet.value, platformWallet, wait) ==>
                  && run.final.txHash == Some(wallet.value.writeContract(
                       Payment.TransferCall(platformWallet, Decimal.ParseUnits(w.price))).hash)
                  && (onExecute(w.id, run.final.txHash.value).Completed? ==> run.final.error == None)
                  && (onExecute(w.id, run.final.txHash.value).Threw? ==>
                        run.final.error == Some(MessageOf(onExecute(w.id, run.final.txHash.value).thrown))))
  {
    var session := Payment.CreatePaymentSession(wallet.value, w.price, nowMs, nonceClockMs);
    var payment := Payment.ExecutePayment(wallet.value, session, w.price, platformWallet, wait);
    var callback := if payment.outcome.Success? then onExecute(w.id, payment.outcome.value) else Completed;
    ReadyTraceFinal(s, w, session, payment, callback);
  }

  /** While the handler is in flight, after every entry but the last, the
      component is executing this workflow, so every execute button is disabled;
      the last entry enables them again. */
  lemma ButtonsDisabledInFlight(
    s: ExecutorState, w: Workflow, wallet: Option<Payment.Wallet>, isInitialized: bool,
    nowMs: nat, nonceClockMs: nat, platformWallet: string,
    wait: string -> Payment.ReceiptOutcome, onExecute: (string, string) -> CallbackOutcome)
    requires Decimal.WellFormedPrice(w.price)
    requires WalletReady(wallet, isInitialized)
    ensures var t := HandleExecute(s, w, wallet, isInitialized, nowMs, nonceClockMs, platformWallet, wait, onExecute).trace;
            && (forall k :: 0 <= k < |t| - 1 ==> t[k].after.executing == Some(w.id) && ButtonsDisabled(t[k].after))
            && !ButtonsDisabled(t[|t| - 1].after)
  {
    var session := Payment.CreatePaymentSession(wallet.value, w.price, nowMs, nonceClockMs);
    var payment := Payment.ExecutePayment(wallet.value, session, w.price, platformWallet, wait);
    var callback := if payment.outcome.Success? then onExecute(w.id, payment.outcome.value) else Completed;
    ReadyTraceFacts(s, w, session, payment, callback);
  }

  /** The amount the handler transfers equals the cap of the session it just
      created, because both are parsed from the same price string. */
  lemma TransferMatchesSession(
    w: Workflow, userWallet: Payment.Wallet, nowMs: nat, nonceClockMs: nat,
    platformWallet: string, wait: string -> Payment.ReceiptOutcome)
    requires Decimal.WellFormedPrice(w.price)
    ensures var session := Payment.CreatePaymentSession(userWallet, w.price, nowMs, nonceClockMs);
            var payment := Payment.ExecutePayment(userWallet, session, w.price, platformWallet, wait);
            payment.calls[0].amount == session.maxAmount
  {
  }

  /** `onExecute` is only ever called with the hash of a transfer that was
      mined with success, provided the payment's wait is truthful to the chain. */
  lemma ExecutesOnlyMinedPayments(
    s: ExecutorState, w: Workflow, wallet: Option<Payment.Wallet>, isInitialized: bool,
    nowMs: nat, nonceClockMs: nat, platformWallet: string,
    wait: string -> Payment.ReceiptOutcome, mined: Payment.Ledger, onExecute: (string, string) -> CallbackOutcome)
    requires Decimal.WellFormedPrice(w.price)
    requires Payment.WaitAgreesWith(wait, mined)
    ensures var t := HandleExecute(s, w, wallet, isInitialized, nowMs, nonceClockMs, platformWallet, wait, onExecute).trace;
            forall k :: 0 <= k < |t| && t[k].event.OnExecuteCalled? ==>
              mined(t[k].event.hash) == Some(Payment.StatusSuccess)
  {
    if WalletReady(wallet, isInitialized) {
      var session := Payment.CreatePaymentSession(wallet.value, w.price, nowMs, nonceClockMs);
      var payment := Payment.ExecutePayment(wallet.value, session, w.price, platformWallet, wait);
      var callback := if payment.outcome.Success? then onExecute(w.id, payment.outcome.value) else Completed;
      ReadyTraceFacts(s, w, session, payment, callback);
      Payment.ExecutedHashIsMined(wallet.value, session, w.price, platformWallet, wait, mined);
    }
  }

  /** Charged but not executed: when the payment's wait throws (a timeout, an
      RPC error) and the transfer is nevertheless mined with success, the click
      has moved the price to the platform wallet, yet `onExecute` is never
      called and the panel shows "Payment execution failed" with no hash. */
  lemma ChargedButNotExecuted(
    s: ExecutorState, w: Workflow, wallet: Option<Payment.Wallet>, isInitialized: bool,
    nowMs: nat, nonceClockMs: nat, platformWallet: string,
    wait: string -> Payment.ReceiptOutcome, mined: Payment.Ledger, onExecute: (string, string) -> CallbackOutcome)
    requires Decimal.WellFormedPrice(w.price)
    requires WalletReady(wallet, isInitialized)
    requires Payment.WaitAgreesWith(wait, mined)
    requires var submitted := wallet.value.writeContract(Payment.TransferCall(platformWallet, Decimal.ParseUnits(w.price)));
             && submitted.Submitted?
             && wait(submitted.hash) == Payment.WaitThrew
             && mined(submitted.hash) == Some(Payment.StatusSuccess)
    ensures var run := HandleExecute(s, w, wallet, isInitialized, nowMs, nonceClockMs, platformWallet, wait, onExecute);
            var transfer := Payment.TransferCall(platformWallet, Decimal.ParseUnits(w.price));
            && |run.trace| >= 5
            && run.trace[4].event.PaymentAttempted?
            && run.trace[4].event.payment.calls == [transfer]
            && run.trace[4].event.payment.waitedOn == [wallet.value.writeContract(transfer).hash]
            && (forall k :: 0 <= k < |run.trace| ==> !run.trace[k].event.OnExecuteCalled?)
            && run.final.error == Some(Payment.PaymentFailedMessage)
            && run.final.txHash == None
  {
    var session := Payment.CreatePaymentSession(wallet.value, w.price, nowMs, nonceClockMs);
    var payment := Payment.ExecutePayment(wallet.value, session, w.price, platformWallet, wait);
    // the payment fails, so `onExecute` is never consulted
    ReadyTraceFacts(s, w, session, payment, Completed);
    ReadyTraceFinal(s, w, session, payment, Completed);
  }
}

=== FILE: workflow_selector.dfy ===
/** The chat's workflow selector: the affordability check and the `handleExecute`
    click handler, as a transition over the component state
    `(isExecuting, forcedToolIds)`. The handler's effects are recorded, in the
    order they happen, as a trace whose entries pair each event with the
    component state right after it. */
module WorkflowSelector {
  import opened Wrappers
  import opened Trace
  import Decimal
  import WorkflowServer

  type Workflow = WorkflowServer.Workflow

  datatype SelectorState = SelectorState(isExecuting: bool, forcedToolIds: seq<int>)

  /** The argument of `onSubmit`. */
  datatype SubmitParams = SubmitParams(message: string, currentMessageFiles: seq<string>, useAgentSearch: bool)

  /** How the awaited `onSubmit` promise settles. */
  datatype SubmitOutcome = Resolved | Rejected

  datatype SelectorEvent =
    | Alert(text: string)
    | SetIsExecuting(value: bool)
    | SetForcedToolIds(ids: seq<int>)
    | CallOnSubmit(params: SubmitParams)

  /** One entry of a handler's trace. */
  type Entry = Stamped<SelectorEvent, SelectorState>

  function Step(s: SelectorState, e: SelectorEvent): SelectorState {
    match e
    case SetIsExecuting(b) => s.(isExecuting := b)
    case SetForcedToolIds(ids) => s.(forcedToolIds := ids)
    case Alert(_) => s
    case CallOnSubmit(_) => s
  }

  /** Every recorded state is the previous one with the entry's event applied. */
  predicate Consistent(s: SelectorState, trace: seq<Entry>) {
    FollowsStep(Step, s, trace)
  }

  /** The handler called `onSubmit` at some point. */
  predicate Submitted(trace: seq<Entry>) {
    exists k :: 0 <= k < |trace| && trace[k].event.CallOnSubmit?
  }

  datatype SelectorRun = SelectorRun(trace: seq<Entry>, final: SelectorState)

  /** `canAfford`: the workflow's cost is within the displayed balance. It is
      exactly the negation of the handler's refusal test `cost > userBalance`. */
  function CanAfford(w: Workflow, userBalance: int): (ok: bool)
    ensures ok <==> !(w.cost > userBalance)
  {
    w.cost <= userBalance
  }

  /** The execute button is clickable: the negation of its `disabled` expression. */
  function ButtonEnabled(w: Workflow, userBalance: int, isExecuting: bool, hasOnSubmit: bool): (enabled: bool)
    // clickable exactly for an affordable workflow, with nothing executing and a submit handler present
    ensures enabled <==> CanAfford(w, userBalance) && !isExecuting && hasOnSubmit
  {
    !(!CanAfford(w, userBalance) || isExecuting || !hasOnSubmit)
  }

  function InsufficientAlert(w: Workflow, userBalance: int): string {
    "Insufficient balance. You need " + Decimal.IntToString(w.cost)
    + " credits but have " + Decimal.IntToString(userBalance) + "."
  }

  function ExecuteMessage(w: Workflow): string {
    "Execute workflow: " + w.id
  }

  /** `handleExecute(workflow)`. */
  function HandleExecute(
    s: SelectorState, w: Workflow, userBalance: int, onSubmit: Option<SubmitParams -> SubmitOutcome>)
    : (run: SelectorRun)
    ensures run.final == Before(s, run.trace, |run.trace|)
    // without onSubmit nothing happens
    ensures onSubmit.None? ==> run.trace == [] && run.final == s
    // an unaffordable workflow is refused with an alert and leaves the state alone
    ensures onSubmit.Some? && !CanAfford(w, userBalance) ==>
              run.trace == [Stamped(Alert(InsufficientAlert(w, userBalance)), s)] && run.final == s
    // an affordable workflow reaches onSubmit: five steps, the third of them the call
    ensures onSubmit.Some? && CanAfford(w, userBalance) ==>
              |run.trace| == 5 && run.trace[2].event.CallOnSubmit?
    // onSubmit is called once, as the third step, for an affordable workflow, and never otherwise
    ensures forall k :: 0 <= k < |run.trace| ==>
              (run.trace[k].event.CallOnSubmit? <==> k == 2 && onSubmit.Some? && CanAfford(w, userBalance))
    // when it is called, the workflow's tool is the only forced tool and execution is flagged
    ensures forall k :: 0 <= k < |run.trace| && run.trace[k].event.CallOnSubmit? ==>
              && run.trace[k].event.params == SubmitParams(ExecuteMessage(w), [], false)
              && Before(s, run.trace, k) == SelectorState(true, [w.toolId])
    // afterwards, whether onSubmit resolved or rejected, the forced tools are cleared
    ensures onSubmit.Some? && CanAfford(w, userBalance) ==> run.final == SelectorState(false, [])
  {
    match onSubmit
    case None => SelectorRun([], s)
    case Some(submit) =>
      if w.cost > userBalance then
        SelectorRun([Stamped(Alert(InsufficientAlert(w, userBalance)), s)], s)
      else
        var params := SubmitParams(ExecuteMessage(w), [], false);
        var s1 := s.(isExecuting := true);
        var s2 := s1.(forcedToolIds := [w.toolId]);
        // the try block and the catch block both clear the forced tools and
        // finally resets the flag, so whether `onSubmit` resolves or rejects
        // the entries after the call are the same
        var s4 := s2.(forcedToolIds := []);
        var s5 := s4.(isExecuting := false);
        SelectorRun(
          [ Stamped(SetIsExecuting(true), s1), Stamped(SetForcedToolIds([w.toolId]), s2),
            Stamped(CallOnSubmit(params), s2), Stamped(SetForcedToolIds([]), s4),
            Stamped(SetIsExecuting(false), s5) ],
          s5)
  }

  /** The states recorded in a handler's trace are exactly those obtained by
      applying its events one after another to the initial state. */
  lemma StatesFollowEvents(
    s: SelectorState, w: Workflow, userBalance: int, onSubmit: Option<SubmitParams -> SubmitOutcome>)
    ensures Consistent(s, HandleExecute(s, w, userBalance, onSubmit).trace)
  {
  }

  /** The button and the handler agree: the button is enabled exactly when no
      execution is in progress and clicking it would reach `onSubmit`. */
  lemma ButtonGuardsHandler(
    s: SelectorState, w: Workflow, userBalance: int, onSubmit: Option<SubmitParams -> SubmitOutcome>)
    ensures ButtonEnabled(w, userBalance, s.isExecuting, onSubmit.Some?)
        <==> !s.isExecuting && Submitted(HandleExecute(s, w, userBalance, onSubmit).trace)
  {
    var t := HandleExecute(s, w, userBalance, onSubmit).trace;
    if onSubmit.Some? && CanAfford(w, userBalance) {
      assert t[2].event.CallOnSubmit?;
    }
  }

  /** The chat's check and the server's check agree: given the balance the
      server reports, a catalog workflow is affordable in the chat exactly when
      the server would execute it. */
  lemma AdmissionAgreesWithServer(m: WorkflowServer.WorkflowManager, workflowId: string)
    requires WorkflowServer.GetWorkflow(m, workflowId).Some?
    ensures var w := WorkflowServer.GetWorkflow(m, workflowId).value;
            var balance := WorkflowServer.SuggestWorkflows(m).userBalance;
            CanAfford(w, balance) <==> WorkflowServer.ExecuteWorkflow(m, workflowId).Succeeded?
  {
    WorkflowServer.DeductFailureUnreachable(m, workflowId);
  }
}

=== FILE: workflow_server.dfy ===
/** The workflow MCP server's decision logic: a fixed catalog of priced
    workflows, a constant credit balance, and the `execute_workflow` decision
    tree (not found, insufficient balance, failed deduction, success). */
module WorkflowServer {
  import opened Wrappers
  import Decimal

  /** Every user's balance, in credits. */
  const DefaultUserBalance: int := 100

  datatype Workflow = Workflow(id: string, name: string, description: string, cost: int, toolId: int)

  /** A JSON value of the kinds `to_dict` produces. */
  datatype JsonValue = JString(s: string) | JInt(i: int)

  /** The keys `to_dict` emits. */
  const WorkflowKeys: set<string> := {"id", "name", "description", "cost", "tool_id"}

  /** Reads a workflow back from a dictionary with the `to_dict` layout. */
  function FromDict(d: map<string, JsonValue>): Option<Workflow> {
    if && "id" in d && d["id"].JString?
       && "name" in d && d["name"].JString?
       && "description" in d && d["description"].JString?
       && "cost" in d && d["cost"].JInt?
       && "tool_id" in d && d["tool_id"].JInt?
    then Some(Workflow(d["id"].s, d["name"].s, d["description"].s, d["cost"].i, d["tool_id"].i))
    else None
  }

  /** `Workflow.to_dict`: five keys, and nothing of the workflow is lost. */
  function ToDict(w: Workflow): (d: map<string, JsonValue>)
    ensures d.Keys == WorkflowKeys
    ensures FromDict(d) == Some(w)
  {
    map["id" := JString(w.id), "name" := JString(w.name), "description" := JString(w.description),
        "cost" := JInt(w.cost), "tool_id" := JInt(w.toolId)]
  }

  /** The catalog built in `WorkflowManager.__init__`. */
  function Catalog(toolId: int): seq<Workflow> {
    [ Workflow("data_processing", "Data Processing Pipeline",
               "Process and analyze large datasets with AI", 5, toolId),
      Workflow("report_generation", "Report Generation",
               "Generate comprehensive reports from data", 3, toolId),
      Workflow("code_review", "Automated Code Review",
               "AI-powered code review and suggestions", 2, toolId) ]
  }

  datatype WorkflowManager = WorkflowManager(toolId: int, workflows: seq<Workflow>)

  function NewManager(toolId: int): WorkflowManager {
    WorkflowManager(toolId, Catalog(toolId))
  }

  /** The catalog has distinct ids, every entry carries the server's tool id,
      and every cost is positive and within the default balance. */
  lemma CatalogInvariants(toolId: int)
    ensures var ws := Catalog(toolId);
            && |ws| == 3
            && (forall i, j :: 0 <= i < j < |ws| ==> ws[i].id != ws[j].id)
            && (forall i :: 0 <= i < |ws| ==> ws[i].toolId == toolId)
            && (forall i :: 0 <= i < |ws| ==> 0 < ws[i].cost <= DefaultUserBalance)
  {
  }

  /** The linear search of `get_workflow`: the first entry with the given id. */
  function FindWorkflow(ws: seq<Workflow>, workflowId: string): (r: Option<Workflow>)
    ensures r.None? <==> forall i :: 0 <= i < |ws| ==> ws[i].id != workflowId
    ensures r.Some? ==>
              exists i :: 0 <= i < |ws| && ws[i] == r.value && ws[i].id == workflowId
                          && forall j :: 0 <= j < i ==> ws[j].id != workflowId
  {
    if ws == [] then None
    else if ws[0].id == workflowId then
      Some(ws[0])
    else
      var r := FindWorkflow(ws[1..], workflowId);
      assert forall i :: 1 <= i < |ws| ==> ws[i] == ws[1..][i - 1];
      if r.Some? then
        var k :| 0 <= k < |ws[1..]| && ws[1..][k] == r.value && ws[1..][k].id == workflowId
                 && forall j :: 0 <= j < k ==> ws[1..][j].id != workflowId;
        assert ws[k + 1] == r.value && forall j :: 0 <= j < k + 1 ==> ws[j].id != workflowId;
        r
      else r
  }

  /** The search returns the unique first match: any index whose entry has the
      id and is preceded by no other such entry is the one returned. */
  lemma FindWorkflowIsFirst(ws: seq<Workflow>, workflowId: string, i: nat)
    requires i < |ws| && ws[i].id == workflowId
    requires forall j :: 0 <= j < i ==> ws[j].id != workflowId
    ensures FindWorkflow(ws, workflowId) == Some(ws[i])
  {
    var r := FindWorkflow(ws, workflowId);
    var k :| 0 <= k < |ws| && ws[k] == r.value && ws[k].id == workflowId
             && forall j :: 0 <= j < k ==> ws[j].id != workflowId;
    assert k == i;
  }

  /** `get_workflow` */
  function GetWorkflow(m: WorkflowManager, workflowId: string): Option<Workflow> {
    FindWorkflow(m.workflows, workflowId)
  }

  /** `get_user_balance`: the same constant for every user. */
  function GetUserBalance(m: WorkflowManager, userId: string): int {
    DefaultUserBalance
  }

  /** `deduct_credits`: succeeds when the balance covers the amount. It records
      nothing, so the balance afterwards is what it was before. */
  function DeductCredits(m: WorkflowManager, userId: string, amount: int): bool {
    GetUserBalance(m, userId) >= amount
  }

  /** Deduction succeeds for every user exactly when the amount is at most the
      default balance, and it leaves the balance it reads unchanged. */
  lemma DeductCreditsSpec(m: WorkflowManager, u1: string, u2: string, amount: int)
    ensures DeductCredits(m, u1, amount) <==> amount <= DefaultUserBalance
    ensures DeductCredits(m, u1, amount) == DeductCredits(m, u2, amount)
    ensures GetUserBalance(m, u1) == GetUserBalance(m, u2) == DefaultUserBalance
  {
  }

  datatype FailureReason =
    | NotFound(workflowId: string)
    | InsufficientBalance(need: int, have: int)
    | DeductFailed

  /** The `error` text returned with `success: False`. Its first character
      tells the three failures apart, and a not-found text quotes the id back. */
  function ErrorText(reason: FailureReason): (e: string)
    ensures |e| >= 1
    ensures e[0] == 'W' <==> reason.NotFound?
    ensures e[0] == 'I' <==> reason.InsufficientBalance?
    ensures e[0] == 'F' <==> reason.DeductFailed?
    ensures reason.NotFound? ==> |e| == |reason.workflowId| + 21 && e[10..|e| - 11] == reason.workflowId
  {
    match reason
    case NotFound(id) => "Workflow '" + id + "' not found"
    case InsufficientBalance(need, have) =>
      "Insufficient balance. Need " + Decimal.IntToString(need) + " credits, have " + Decimal.IntToString(have)
    case DeductFailed => "Failed to deduct credits"
  }

  datatype ExecutionResult = ExecutionResult(status: string, executionTime: string, output: string)

  /** The dictionary `execute_workflow` returns: `success: False` with an
      error, or `success: True` with the execution report. */
  datatype ExecuteResponse =
    | Failed(reason: FailureReason)
    | Succeeded(workflowId: string, workflowName: string, message: string,
                creditsUsed: int, remainingBalance: int, result: ExecutionResult)

  /** `execute_workflow(workflow_id)` */
  function ExecuteWorkflow(m: WorkflowManager, workflowId: string): (r: ExecuteResponse)
    // an unknown id fails as not found, and only an unknown id does
    ensures r == Failed(NotFound(workflowId)) <==> forall i :: 0 <= i < |m.workflows| ==> m.workflows[i].id != workflowId
    // a known id fails for lack of credits exactly when its cost exceeds the balance
    ensures r.Failed? && r.reason.InsufficientBalance? <==>
              GetWorkflow(m, workflowId).Some? && DefaultUserBalance < GetWorkflow(m, workflowId).value.cost
    ensures r.Failed? && r.reason.InsufficientBalance? ==>
              && r.reason.need == GetWorkflow(m, workflowId).value.cost
              && r.reason.have == DefaultUserBalance
              && r.reason.need > r.reason.have
    // the error texts the caller sees
    ensures r == Failed(NotFound(workflowId)) ==> ErrorText(r.reason) == "Workflow '" + workflowId + "' not found"
    ensures r.Failed? && r.reason.InsufficientBalance? ==>
              ErrorText(r.reason) == "Insufficient balance. Need " + Decimal.IntToString(GetWorkflow(m, workflowId).value.cost)
                                     + " credits, have " + Decimal.IntToString(DefaultUserBalance)
    // on success the cost is reported as used and the reported remainder is not negative;
    // nothing is charged, since the balance is a constant
    ensures r.Succeeded? ==> GetUserBalance(m, "default") == DefaultUserBalance
    ensures r.Succeeded? ==>
              && GetWorkflow(m, workflowId).Some?
              && r.workflowId == workflowId
              && r.creditsUsed == GetWorkflow(m, workflowId).value.cost
              && r.remainingBalance == DefaultUserBalance - r.creditsUsed
              && r.remainingBalance >= 0
  {
    match GetWorkflow(m, workflowId)
    case None => Failed(NotFound(workflowId))
    case Some(workflow) =>
      var userBalance := GetUserBalance(m, "default");
      if userBalance < workflow.cost then
        Failed(InsufficientBalance(workflow.cost, userBalance))
      else if !DeductCredits(m, "default", workflow.cost) then
        Failed(DeductFailed)
      else
        Succeeded(
          workflowId, workflow.name,
          "Workflow '" + workflow.name + "' executed successfully",
          workflow.cost, userBalance - workflow.cost,
          ExecutionResult("completed", "2.5s", "Workflow " + workflow.name + " completed successfully"))
  }

  /** The "Failed to deduct credits" branch is dead: the balance test before it
      is the exact complement of the test inside `deduct_credits`. */
  lemma DeductFailureUnreachable(m: WorkflowManager, workflowId: string)
    ensures ExecuteWorkflow(m, workflowId) != Failed(DeductFailed)
  {
    match GetWorkflow(m, workflowId)
    case None =>
    case Some(w) =>
      assert GetUserBalance(m, "default") < w.cost <==> !DeductCredits(m, "default", w.cost);
  }

  /** Two failures with the same error text are the same kind of failure, and
      two not-found texts name the same id. */
  lemma ErrorTextIdentifiesReason(a: FailureReason, b: FailureReason)
    requires ErrorText(a) == ErrorText(b)
    ensures a.NotFound? <==> b.NotFound?
    ensures a.InsufficientBalance? <==> b.InsufficientBalance?
    ensures a.DeductFailed? <==> b.DeductFailed?
    ensures a.NotFound? ==> a.workflowId == b.workflowId
  {
  }

  /** With the shipped catalog every listed workflow executes successfully. */
  lemma CatalogWorkflowsSucceed(toolId: int, i: nat)
    requires i < |Catalog(toolId)|
    ensures ExecuteWorkflow(NewManager(toolId), Catalog(toolId)[i].id).Succeeded?
  {
    var ws := Catalog(toolId);
    CatalogInvariants(toolId);
    FindWorkflowIsFirst(ws, ws[i].id, i);
  }

  /** The `workflow_list` payload of `suggest_workflows`. */
  datatype WorkflowList = WorkflowList(kind: string, workflows: seq<map<string, JsonValue>>, userBalance: int)

  /** `suggest_workflows`: every catalog entry, in order, as its dictionary,
      together with the user's balance. */
  function SuggestWorkflows(m: WorkflowManager): (r: WorkflowList)
    ensures r.kind == "workflow_list"
    ensures |r.workflows| == |m.workflows|
    ensures forall i :: 0 <= i < |r.workflows| ==> FromDict(r.workflows[i]) == Some(m.workflows[i])
    ensures r.userBalance == DefaultUserBalance
  {
    var ws := m.workflows;
    WorkflowList("workflow_list", seq(|ws|, i requires 0 <= i < |ws| => ToDict(ws[i])), GetUserBalance(m, "default"))
  }
}

=== FILE: wrappers.dfy ===
/** Failure-compatible wrappers shared by the model: `Option` for values that may
    be absent (a missing catalog entry, an absent callback) and `Result` for
    operations that either return a value or raise an error carrying a message. */
module Wrappers {

  datatype Option<+T> = None | Some(value: T)

  datatype Result<+R, +E> = Success(value: R) | Failure(error: E)
}
